=== FILE: README.md ===
# Prebook: message templates and the reservation request form

This project models the two pure cores of the prebook application, a booking page for a
one-person beauty studio.

**Message templates** (`Templates`, `Strings`). There are two canned messages:
- the deposit guide, which is fixed text;
- the booking confirmation, which has the placeholders `{appointmentDate}`,
  `{appointmentTime}` and `{customerName}`.

`customizeMessage` returns a non-customizable template verbatim. Otherwise it folds over the
variable entries in order. Each entry replaces only the **first** `{key}` of the text produced
so far, with JavaScript's string `replace`:
- `Strings.ReplaceFirst` models that replace as a left-to-right scan;
- `Strings.ReplaceFirstSpec` proves it matches the leftmost-occurrence definition.

Variables are a sequence of `(key, value)` pairs, so their order is fixed. Both template bodies
are reproduced character for character. The confirmation is built from its fixed text pieces
and its three placeholders. This lets the proofs show that each placeholder occurs exactly
once, and that filling all three leaves the fixed text intact. `Filling` shows that, with
brace-free values, every order of the three confirmation entries gives the same text.

**The reservation request form** (`Reservation`, `Submission`).
- `FormData` is the form state, and each event handler is a function on it:
  - choosing a service resets the chosen slots;
  - the calendar adds a slot;
  - the calendar removes a slot by date and time;
  - the list removes a slot by index;
  - inputs update their field.
- The booked-slot list is flattened out of the stored reservations.
- `handleSubmit` makes backend calls. Each call's answer comes from a `Backend` value supplied
  as input (an oracle). A submit returns the calls it made, in order, the new `submitted`
  flag and the alert shown. Its checks run in a fixed order:
  1. the terms check;
  2. the duplicate-pending check by phone;
  3. the optional front photo upload, then the optional closed-eyes photo upload;
  4. the insert of a `pending` row.

  The first failure ends the attempt.

Files: `options.dfy` (`Option`), `strings.dfy`, `templates.dfy`, `fill.dfy` (`Filling`),
`reservation.dfy`, `submission.dfy`.

## Model

| member | source | states |
|---|---|---|
| Strings.ReplaceFirst | prebook-app/src/constants/messageTemplates.ts:52 | `content.replace(pattern, value)` as a left-to-right scan; its meaning (unchanged without an occurrence, otherwise the value spliced in at the leftmost one) is stated by `Strings.ReplaceFirstSpec` |
| Strings.ReplaceFirstSpec | prebook-app/src/constants/messageTemplates.ts:52 | `replace` with a string pattern leaves a text without the pattern unchanged; otherwise the result is the text before the leftmost occurrence, then the value, then the text after it |
| Strings.ReplaceFirstAbsent | prebook-app/src/constants/messageTemplates.ts:52 | a step whose `{key}` does not occur leaves the content unchanged |
| Strings.ReplaceFirstAt | prebook-app/src/constants/messageTemplates.ts:52 | a step where the pattern first occurs at `i` splices the value in at `i`, replacing only that occurrence |
| Strings.ReplaceFirstKeepsContext | prebook-app/src/constants/messageTemplates.ts:52 | after a successful step the length is `|content| - |pattern| + |value|`, the text before the occurrence is unchanged, the value follows it, and then the text after the occurrence |
| Strings.NoBraceUnchanged | prebook-app/src/constants/messageTemplates.ts:52 | replacing a `{key}` pattern in text that has no `{` changes nothing |
| Strings.ReplaceUnderBraceFreePrefix | prebook-app/src/constants/messageTemplates.ts:52 | a prefix without `{` is never touched by a `{key}` replacement; only the rest of the text changes |
| Strings.ReplaceAtStart | prebook-app/src/constants/messageTemplates.ts:52 | text that starts with the pattern gets the value in place of those first characters |
| Templates.Template | prebook-app/src/constants/messageTemplates.ts:8-41 | of the two templates only the confirmation requires customization |
| Templates.Placeholder | prebook-app/src/constants/messageTemplates.ts:52 | the pattern searched for a key is `{`, the key itself, then `}` |
| Templates.PlaceholderMatchesOnlyItsKey | prebook-app/src/constants/messageTemplates.ts:52 | for brace-free keys, `{q}` occurs at the start of `{k}…` only when `q` is `k` |
| Templates.SubstituteAll | prebook-app/src/constants/messageTemplates.ts:50-54 | the `forEach` over the entries; content with no `{` comes back unchanged whatever the entries |
| Templates.Customize | prebook-app/src/constants/messageTemplates.ts:44-55 | a non-customizable template comes back verbatim for every variable list; an empty variable list, or content with no `{`, gives the content back unchanged |
| Templates.SubstituteAllAppend | prebook-app/src/constants/messageTemplates.ts:51-53 | substituting `a + b` is substituting `a`, then `b` on its output |
| Templates.CustomizeSnoc | prebook-app/src/constants/messageTemplates.ts:51-53 | the result is a left fold: one more entry at the end is one more first-occurrence replacement on the previous result |
| Templates.DepositGuideVerbatim | prebook-app/src/constants/messageTemplates.ts:21 | the deposit guide is not customizable, so customizing it returns its exact body for any variables |
| Templates.SlotOccurrences | prebook-app/src/constants/messageTemplates.ts:28-30 | for brace-free keys, in `pre + {k} + post` with a brace-free `pre`, a placeholder occurs exactly at the `{k}` (if it is `k`'s) or inside `post` |
| Templates.ThreeSlotOccurrences | prebook-app/src/constants/messageTemplates.ts:28-30 | for brace-free keys, in a body of brace-free texts around three placeholders, the placeholder occurrences are exactly those three |
| Templates.ConfirmationFixedTextBraceFree | prebook-app/src/constants/messageTemplates.ts:25-38 | the fixed text of the confirmation contains no `{` |
| Templates.ConfirmationOccurrences | prebook-app/src/constants/messageTemplates.ts:25-38 | the confirmation holds `{appointmentDate}`, `{appointmentTime}` and `{customerName}` each at its own position, and, for brace-free keys, no other placeholder occurrence |
| Templates.ConfirmationPlaceholdersOnce | prebook-app/src/constants/messageTemplates.ts:28-30 | each of the three placeholders occurs exactly once in the confirmation |
| Templates.SubstituteThree | prebook-app/src/constants/messageTemplates.ts:51-53 | three entries are three replacements, made in list order |
| Templates.SlotReplace | prebook-app/src/constants/messageTemplates.ts:52 | the first `{k}` behind brace-free text is the one replaced |
| Templates.SubstituteAllStep | prebook-app/src/constants/messageTemplates.ts:51-53 | one turn of the `forEach`: the first entry's `{key}` is replaced, then the remaining entries are substituted |
| Strings.ReplaceBehindPrefix | prebook-app/src/constants/messageTemplates.ts:52 | a prefix at none of whose positions the pattern starts is kept; only the rest of the text changes |
| Filling.SkipPlaceholder | prebook-app/src/constants/messageTemplates.ts:52 | for two different brace-free keys `q` and `k`, replacing `{k}` passes over a whole `{q}` |
| Filling.FillStep | prebook-app/src/constants/messageTemplates.ts:52 | in a three-slot body with brace-free values, replacing an unfilled key fills exactly that key's slot, whichever other slots are filled already |
| Filling.FillAll | prebook-app/src/constants/messageTemplates.ts:50-54 | entries with brace-free values naming unfilled slots, each key once, fill each of those slots with its own value, in any order |
| Filling.FillAnyOrder | prebook-app/src/constants/messageTemplates.ts:50-54 | three entries with brace-free values whose names are exactly the three keys fill every slot, whatever their order |
| Filling.FilledInAnyOrder | prebook-app/src/constants/messageTemplates.ts:50-54 | with brace-free values, the filled body is the fixed text with each key's value in its slot, and holds no placeholder |
| Filling.ConfirmationAsSlots | prebook-app/src/constants/messageTemplates.ts:23-40 | customizing the confirmation is substituting into its three-slot body |
| Filling.ConfirmationAnyOrder | prebook-app/src/constants/messageTemplates.ts:44-55 | for the date, time and name entries in any of the six orders, with brace-free values, the confirmation has each value in its own placeholder's place and no placeholder left |
| Templates.FillSecondSlot | prebook-app/src/constants/messageTemplates.ts:52 | behind brace-free fixed text and a brace-free first value, the second placeholder is still the first occurrence of its key and is replaced in place |
| Templates.FillThirdSlot | prebook-app/src/constants/messageTemplates.ts:52 | behind brace-free fixed text and brace-free earlier values, the third placeholder is still the first occurrence of its key and is replaced in place |
| Templates.ThreeSlotFill | prebook-app/src/constants/messageTemplates.ts:51-53 | with brace-free fixed text before the third placeholder and brace-free first and second values, the entries in slot order put each value where its placeholder was and keep the fixed text |
| Templates.FillOnlyFirstSlot | prebook-app/src/constants/messageTemplates.ts:51-53 | behind brace-free text, a single entry fills its placeholder and leaves the rest of the body, including other placeholders, as it was |
| Templates.ConfirmationFilled | prebook-app/src/constants/messageTemplates.ts:23-40 | with a brace-free date and time, customizing the confirmation with the entries in the order date, time, name yields the fixed text with the three values in the placeholders' places |
| Templates.ConfirmationExample | prebook-app/src/constants/messageTemplates.ts:23-40 | the instance 2024-05-01 / 14:00 / Kim: each placeholder replaced once, all fixed text unchanged |
| Templates.ConfirmationDateOnly | prebook-app/src/constants/messageTemplates.ts:51-53 | with only the date supplied, the confirmation's `{appointmentTime}` and `{customerName}` stay verbatim (the general law for three-slot bodies is `Filling.FillAll`) |
| Templates.BraceFreePiecesNoPlaceholder | prebook-app/src/constants/messageTemplates.ts:52 | text assembled from brace-free pieces holds no placeholder |
| Templates.ConfirmationFilledLeavesNoPlaceholder | prebook-app/src/constants/messageTemplates.ts:28-30 | after substituting all three keys, in the order date, time, name, with brace-free values, no placeholder remains in the confirmation (any order: `Filling.ConfirmationAnyOrder`) |
| Reservation.SelectService | prebook-app/src/app/prebook/page.tsx:57-63 | choosing a service sets it, empties the chosen slots and leaves every other field unchanged |
| Reservation.SetTermsAgreed | prebook-app/src/app/prebook/page.tsx:202-204 | the checkbox sets the terms flag and nothing else |
| Reservation.AddSlot | prebook-app/src/app/prebook/page.tsx:345-350 | the new slot is appended; the length grows by one and the earlier slots are untouched |
| Reservation.RemoveSlot | prebook-app/src/app/prebook/page.tsx:351-357 | a slot is kept iff it differs from the target in date or time; the kept slots are exactly the old ones minus every copy of the target |
| Reservation.RemoveSlotAppend | prebook-app/src/app/prebook/page.tsx:354-356 | removal works piecewise over a concatenation, so the kept slots keep their order |
| Reservation.RemoveAbsentSlot | prebook-app/src/app/prebook/page.tsx:354-356 | removing a slot that is not chosen changes nothing |
| Reservation.RemoveSlotIdempotent | prebook-app/src/app/prebook/page.tsx:351-357 | removing the same slot twice is removing it once |
| Reservation.AddThenRemoveSlot | prebook-app/src/app/prebook/page.tsx:345-357 | adding a slot that was not chosen and removing it again gives back the original list |
| Reservation.DeleteAt | prebook-app/src/app/prebook/page.tsx:379-383 | deleting index `i` of the list drops exactly that element: the length drops by one, the slots before `i` are kept and the rest shifts down by one; an index past the end changes nothing |
| Reservation.DeleteAtReinsert | prebook-app/src/app/prebook/page.tsx:382 | putting the deleted slot back at its index restores the list |
| Reservation.DeleteAtIsRemoveSlot | prebook-app/src/app/prebook/page.tsx:351-383 | on a list without repeats, the delete button and the calendar's remove agree |
| Reservation.HandleChange | prebook-app/src/app/prebook/page.tsx:164-178 | a text input stores its value in its own field; a file input stores its first file, or nothing; every other field is unchanged |
| Reservation.BookedOf | prebook-app/src/app/prebook/page.tsx:77-83 | one booked record per desired slot of a reservation, in order, each with the reservation's status, chosen slot and service |
| Reservation.Flatten | prebook-app/src/app/prebook/page.tsx:76-84 | the booked-slot list has as many records as there are desired slots over all reservations |
| Reservation.FlattenAppend | prebook-app/src/app/prebook/page.tsx:76-84 | flattening two reservation lists gives the two flattenings one after the other |
| Reservation.FlattenAt | prebook-app/src/app/prebook/page.tsx:76-84 | slot `j` of reservation `k` sits right after all slots of earlier reservations and carries reservation `k`'s status, chosen slot and service |
| Reservation.LoadReservedSlots | prebook-app/src/app/prebook/page.tsx:66-87 | a failed query leaves the booked-slot list as it was; otherwise the list becomes exactly the flattening, one booked slot per desired slot of each row |
| Submission.UploadPhoto | prebook-app/src/app/prebook/page.tsx:116-124 | no photo means no call and no path; a picked photo is uploaded once; the step fails iff storage answers with an error, and otherwise yields the stored path |
| Submission.RecordOf | prebook-app/src/app/prebook/page.tsx:139-151 | the inserted row literal; `Submission.SubmitInsertsPendingRecord` states that the row inserted carries the form's fields, status `pending` and the stored photo paths |
| Submission.HasPending | prebook-app/src/app/prebook/page.tsx:107 | the duplicate condition `existingReservations && existingReservations.length > 0`; `Submission.Submit` states that it stops the attempt after the query with the pending alert, and `Submission.PendingNullProceeds` that a null result does not |
| Submission.Submit | prebook-app/src/app/prebook/page.tsx:92-162 | without agreed terms nothing is called and the terms alert is shown; otherwise the duplicate query comes first; a pending duplicate stops the attempt right after it |
| Submission.SubmitIsTrace | prebook-app/src/app/prebook/page.tsx:92-162 | every submit makes, in order: nothing, or the query, an optional front upload, an optional closed upload and an optional insert |
| Submission.TraceOrder | prebook-app/src/app/prebook/page.tsx:99-157 | in such a trace the insert is made at most once and last, the query only first, and at most four calls are made |
| Submission.SubmitOutcome | prebook-app/src/app/prebook/page.tsx:92-162 | `submitted` becomes true iff it already was or the insert was made and succeeded; no alert is shown exactly then; the generic alert is shown iff the checks passed and an upload or the insert failed |
| Submission.FailedUploadStopsSubmit | prebook-app/src/app/prebook/page.tsx:116-134 | a failed upload means no insert, `submitted` unchanged and the generic alert |
| Submission.SubmitUploadsPickedPhotos | prebook-app/src/app/prebook/page.tsx:116-134 | only picked photos are uploaded, each from its own input; once the checks pass a picked front photo is always uploaded, and a picked closed photo unless the front upload failed |
| Submission.SubmitInsertsPendingRecord | prebook-app/src/app/prebook/page.tsx:137-151 | the inserted row has the form's fields, status `pending`, and for each photo the path storage returned for it, or none when no photo was picked |
| Submission.PendingNullProceeds | prebook-app/src/app/prebook/page.tsx:107 | a duplicate query that returns no data behaves like one that returns no rows |
| Submission.SubmitHappyPath | prebook-app/src/app/prebook/page.tsx:92-162 | with both photos and every call succeeding: exactly the query, one upload per photo and one `pending` insert, and `submitted` becomes true |
| Submission.SubmitWithoutPhotos | prebook-app/src/app/prebook/page.tsx:112-151 | without photos the insert follows the query directly and carries no photo paths |
| Submission.SubmitInsertFails | prebook-app/src/app/prebook/page.tsx:154-160 | when the checks pass and no picked photo fails to upload, a failed insert is the last call, `submitted` keeps its value and the generic alert is shown |
| Submission.UploadsThenInsert | prebook-app/src/app/prebook/page.tsx:116-152 | optional front upload, optional closed upload and optional insert, concatenated, is what may follow the query |

## Left out

- Strings.ReplaceFirst, Templates.Customize: values containing `$` are excluded. JavaScript gives `$&`, `$$`, `` $` `` and `$'` a special meaning in a replacement string, and those patterns are not modelled.
- Templates.Customize: variables are an ordered list of pairs, not an object. `Object.entries` lists integer-like keys first in numeric order, and that reordering is not modelled; the list order is taken as the iteration order.
- All Supabase I/O (`select`, `eq`, `insert`, `storage.upload`) becomes the answers in `Backend`. The storage paths built from `Date.now()` are left out; only the path storage returns is kept.
- Submission.Submit: the race between the duplicate check and the insert, and overlapping submissions from repeated clicks, are not modelled; a submit is one sequential run.
- Submission.ReservationRecord: the row's `age` is `parseInt(formData.age)` in the source; the model keeps the typed text, because number parsing is not part of the logic modelled.
- Submission.Backend: the error of the duplicate query is not looked at by the source; the model has only the query's data, with `None` for no data (which proceeds).
- Submission.Submit: an exception thrown by an awaited call itself (rather than returned as `error`) also ends in the generic alert; the model covers only failures reported as `error`.
- `console` logging and `alert` pop-ups are reduced to the alert value of a run; `date-fns` formatting, all JSX rendering and styling, and the `textarea` UI wrapper are not modelled.
- The `Calendar` component is not part of this model. This includes its `maxSelections={3}` cap and its exclusion of booked slots, so nothing here claims that the form limits the number of chosen slots; `AddSlot` appends whatever the calendar hands over.
- Reservation.TimeSlot: the calendar's slot type is taken to carry only `date` and `time`, since only those two are read by the page.
- Reservation.HandleChange: only the inputs the page wires to `handleChange` (name, gender, age, phone, referral source, prior experience, and the two photo inputs) are modelled; an arbitrary `name` attribute writing an arbitrary key is not.
- Reservation.LoadReservedSlots: the query's error is modelled as `None`; the effect runs once on mount, and that scheduling is not modelled.
- Both file inputs carry the HTML `required` attribute (`prebook-app/src/app/prebook/page.tsx:418`, `:430`), and browser form validation is not modelled. `handleSubmit` itself uploads a photo only if one was picked (`:116`, `:126`) and otherwise stores a null path, and that is what the model does. `age` is kept as the typed text, which the source inserts as `parseInt` of it (`:142`).
- Reservation.StoredReservation: a stored row always has a list of desired slots. In the source, a row whose `desired_slots` column is null makes `reservation.desired_slots.map` throw (`prebook-app/src/app/prebook/page.tsx:77`), and the booked-slot list then stays as it was; that throw is not modelled.
- Templates.DateAt, Templates.TimeAt, Templates.NameAt: Dafny strings count Unicode code points, while JavaScript strings count UTF-16 code units. The 🎀 in the confirmation's second line is two units in JavaScript, so each of these positions is one less than the JavaScript index (for example 93 where JavaScript gives 94). Lone surrogates cannot be represented at all.

=== FILE: fill.dfy ===
/** Filling a three-placeholder body in whatever order the variables arrive.
    `customizeMessage` walks `Object.entries(variables)`, so the order of the replacements
    is the caller's key order; with brace-free values every order gives the same text. */
module Filling {
  import opened Options
  import opened Strings
  import opened Templates

  /** A body with three placeholder slots between fixed text, grouped to the right. */
  datatype SlotBody = SlotBody(head: string, key1: string, mid1: string, key2: string,
                               mid2: string, key3: string, tail: string)

  /** Brace-free fixed text and three different brace-free keys. */
  predicate WellFormed(b: SlotBody) {
    NoBrace(b.head) && NoBrace(b.mid1) && NoBrace(b.mid2) && NoBrace(b.tail)
    && PlainKey(b.key1) && PlainKey(b.key2) && PlainKey(b.key3)
    && b.key1 != b.key2 && b.key1 != b.key3 && b.key2 != b.key3
  }

  /** The value of the first entry named `key`, if there is one. */
  function Lookup(vars: seq<(string, string)>, key: string): Option<string> {
    if |vars| == 0 then None
    else if vars[0].0 == key then Some(vars[0].1)
    else Lookup(vars[1..], key)
  }

  /** The names of the entries, in order. */
  function Keys(vars: seq<(string, string)>): seq<string> {
    seq(|vars|, i requires 0 <= i < |vars| => vars[i].0)
  }

  /** A slot shows its value once one has been substituted into it, its placeholder until then. */
  function SlotText(key: string, filled: seq<(string, string)>): string {
    Lookup(filled, key).GetOr(Placeholder(key))
  }

  /** The body after the entries `filled` have been substituted. */
  function Render(b: SlotBody, filled: seq<(string, string)>): string {
    b.head + (SlotText(b.key1, filled) + (b.mid1 + (SlotText(b.key2, filled)
    + (b.mid2 + (SlotText(b.key3, filled) + b.tail)))))
  }

  /** Appending an entry makes its key found, and changes nothing for a key found already. */
  lemma {:induction false} LookupAppendOne(done: seq<(string, string)>, k: string, v: string, key: string)
    ensures Lookup(done + [(k, v)], key)
         == if Lookup(done, key).Some? then Lookup(done, key)
            else if key == k then Some(v) else None
  {
    if |done| > 0 {
      assert (done + [(k, v)])[1..] == done[1..] + [(k, v)];
      LookupAppendOne(done[1..], k, v, key);
    }
  }

  /** A value found among brace-free values is brace-free. */
  lemma {:induction false} LookupBraceFree(vars: seq<(string, string)>, key: string)
    requires BraceFreeValues(vars)
    ensures Lookup(vars, key).Some? ==> NoBrace(Lookup(vars, key).value)
  {
    if |vars| > 0 && vars[0].0 != key {
      LookupBraceFree(vars[1..], key);
    }
  }

  /** A placeholder for another plain key is passed over whole when replacing `{k}`. */
  lemma SkipPlaceholder(q: string, rest: string, k: string, v: string)
    requires PlainKey(q) && PlainKey(k) && q != k && '$' !in v
    ensures ReplaceFirst(Placeholder(q) + rest, Placeholder(k), v)
         == Placeholder(q) + ReplaceFirst(rest, Placeholder(k), v)
  {
    var pq, pk := Placeholder(q), Placeholder(k);
    var s := pq + rest;
    forall i: nat | i < |pq|
      ensures !OccursAt(s, pk, i)
    {
      if i == 0 {
        if OccursAt(s, pk, 0) {
          PlaceholderMatchesOnlyItsKey(k, q, rest);
        }
      } else {
        assert s[i] != '{' by {
          if i < |pq| - 1 {
            assert s[i] == pq[1..|pq| - 1][i - 1];
          }
        }
        if OccursAt(s, pk, i) {
          OccurrenceOnBrace(s, pk, i);
        }
      }
    }
    ReplaceBehindPrefix(pq, rest, pk, v);
  }

  /** A slot for another key, filled with a brace-free value or not filled yet, is passed
      over whole when replacing `{k}`. */
  lemma SkipSlot(q: string, filled: seq<(string, string)>, rest: string, k: string, v: string)
    requires PlainKey(q) && PlainKey(k) && q != k && '$' !in v
    requires BraceFreeValues(filled)
    ensures ReplaceFirst(SlotText(q, filled) + rest, Placeholder(k), v)
         == SlotText(q, filled) + ReplaceFirst(rest, Placeholder(k), v)
  {
    LookupBraceFree(filled, q);
    match Lookup(filled, q)
    case Some(x) => ReplaceUnderBraceFreePrefix(x, rest, Placeholder(k), v);
    case None => SkipPlaceholder(q, rest, k, v);
  }

  /** Substituting one more entry fills exactly the slot of its key, wherever that slot is
      and whichever other slots are filled already. */
  lemma FillStep(b: SlotBody, filled: seq<(string, string)>, k: string, v: string)
    requires WellFormed(b) && BraceFreeValues(filled)
    requires NoBrace(v) && '$' !in v
    requires k == b.key1 || k == b.key2 || k == b.key3
    requires Lookup(filled, k).None?
    ensures ReplaceFirst(Render(b, filled), Placeholder(k), v) == Render(b, filled + [(k, v)])
  {
    var p := Placeholder(k);
    LookupAppendOne(filled, k, v, b.key1);
    LookupAppendOne(filled, k, v, b.key2);
    LookupAppendOne(filled, k, v, b.key3);
    var t3 := SlotText(b.key3, filled) + b.tail;
    var t2 := SlotText(b.key2, filled) + (b.mid2 + t3);
    var t1 := SlotText(b.key1, filled) + (b.mid1 + t2);
    assert Render(b, filled) == b.head + t1;
    ReplaceUnderBraceFreePrefix(b.head, t1, p, v);
    if k == b.key1 {
      ReplaceAtStart(p, b.mid1 + t2, v);
    } else {
      SkipSlot(b.key1, filled, b.mid1 + t2, k, v);
      ReplaceUnderBraceFreePrefix(b.mid1, t2, p, v);
      if k == b.key2 {
        ReplaceAtStart(p, b.mid2 + t3, v);
      } else {
        SkipSlot(b.key2, filled, b.mid2 + t3, k, v);
        ReplaceUnderBraceFreePrefix(b.mid2, t3, p, v);
        ReplaceAtStart(p, b.tail, v);
      }
    }
  }

  /** Every entry to substitute names one of the three slots. */
  predicate NamesSlots(b: SlotBody, todo: seq<(string, string)>) {
    forall i :: 0 <= i < |todo| ==> todo[i].0 == b.key1 || todo[i].0 == b.key2 || todo[i].0 == b.key3
  }

  /** No entry to substitute names a key that was substituted before it. */
  predicate Fresh(done: seq<(string, string)>, todo: seq<(string, string)>) {
    forall i :: 0 <= i < |todo| ==> Lookup(done + todo[..i], todo[i].0).None?
  }

  /** After the first entry is substituted, the others are still fresh and still name slots. */
  lemma FreshStep(b: SlotBody, done: seq<(string, string)>, todo: seq<(string, string)>)
    requires |todo| > 0 && Fresh(done, todo) && NamesSlots(b, todo)
    requires BraceFreeValues(done) && BraceFreeValues(todo) && DollarFree(todo)
    ensures Lookup(done, todo[0].0).None?
    ensures Fresh(done + [todo[0]], todo[1..]) && NamesSlots(b, todo[1..])
    ensures BraceFreeValues(done + [todo[0]]) && BraceFreeValues(todo[1..]) && DollarFree(todo[1..])
  {
    assert done + todo[..0] == done;
    var next, rest := done + [todo[0]], todo[1..];
    forall i | 0 <= i < |rest|
      ensures Lookup(next + rest[..i], rest[i].0).None?
    {
      assert next + rest[..i] == done + todo[..i + 1];
      assert rest[i] == todo[i + 1];
    }
  }

  /** Moving the first entry of the second list to the end of the first keeps the whole. */
  lemma MoveHead(done: seq<(string, string)>, todo: seq<(string, string)>)
    requires |todo| > 0
    ensures done + [todo[0]] + todo[1..] == done + todo
  {
    assert todo == [todo[0]] + todo[1..];
  }

  /** Substituting entries for slots not filled yet, each named once, fills each of those
      slots with its own value. */
  lemma {:induction false} FillAll(b: SlotBody, done: seq<(string, string)>, todo: seq<(string, string)>)
    requires WellFormed(b) && DollarFree(todo)
    requires BraceFreeValues(done) && BraceFreeValues(todo)
    requires NamesSlots(b, todo) && Fresh(done, todo)
    ensures SubstituteAll(Render(b, done), todo) == Render(b, done + todo)
    decreases |todo|
  {
    if |todo| == 0 {
      assert done + todo == done;
    } else {
      var (k, v) := todo[0];
      var next := done + [todo[0]];
      FreshStep(b, done, todo);
      FillStep(b, done, k, v);
      SubstituteAllStep(Render(b, done), todo);
      FillAll(b, next, todo[1..]);
      MoveHead(done, todo);
    }
  }

  /** A key no entry names is not found. */
  lemma {:induction false} LookupMissing(vars: seq<(string, string)>, key: string)
    requires forall j :: 0 <= j < |vars| ==> vars[j].0 != key
    ensures Lookup(vars, key) == None
  {
    if |vars| > 0 {
      assert forall j :: 0 <= j < |vars[1..]| ==> vars[1..][j] == vars[j + 1];
      LookupMissing(vars[1..], key);
    }
  }

  /** A key some entry names is found. */
  lemma {:induction false} LookupPresent(vars: seq<(string, string)>, i: nat)
    requires i < |vars|
    ensures Lookup(vars, vars[i].0).Some?
  {
    if vars[0].0 != vars[i].0 {
      LookupPresent(vars[1..], i - 1);
    }
  }

  /** Entries with pairwise different names are fresh when nothing was substituted before. */
  lemma DistinctKeysFresh(todo: seq<(string, string)>)
    requires forall i, j :: 0 <= i < j < |todo| ==> todo[i].0 != todo[j].0
    ensures Fresh([], todo)
  {
    forall i | 0 <= i < |todo|
      ensures Lookup([] + todo[..i], todo[i].0).None?
    {
      assert [] + todo[..i] == todo[..i];
      LookupMissing(todo[..i], todo[i].0);
    }
  }

  /** Names that make up exactly three different keys are those keys, once each. */
  lemma ThreeKeys(vars: seq<(string, string)>, a: string, b: string, c: string)
    requires a != b && a != c && b != c
    requires multiset(Keys(vars)) == multiset{a, b, c}
    ensures |vars| == 3
    ensures forall i, j :: 0 <= i < j < |vars| ==> vars[i].0 != vars[j].0
    ensures forall i :: 0 <= i < |vars| ==> vars[i].0 == a || vars[i].0 == b || vars[i].0 == c
    ensures a in Keys(vars) && b in Keys(vars) && c in Keys(vars)
  {
    var ks := Keys(vars);
    assert |multiset(ks)| == |ks|;
    assert ks == [vars[0].0, vars[1].0, vars[2].0];
    assert multiset(ks) == multiset{vars[0].0, vars[1].0, vars[2].0};
    forall i | 0 <= i < |vars|
      ensures vars[i].0 == a || vars[i].0 == b || vars[i].0 == c
    {
      assert ks[i] in multiset(ks);
    }
    assert a in multiset(ks) && b in multiset(ks) && c in multiset(ks);
  }

  /** Three entries named exactly by the three keys, in any order and with brace-free values,
      fill every slot with the value named for it. */
  lemma FillAnyOrder(b: SlotBody, vars: seq<(string, string)>)
    requires WellFormed(b)
    requires multiset(Keys(vars)) == multiset{b.key1, b.key2, b.key3}
    requires BraceFreeValues(vars) && DollarFree(vars)
    ensures Lookup(vars, b.key1).Some? && Lookup(vars, b.key2).Some? && Lookup(vars, b.key3).Some?
    ensures SubstituteAll(Render(b, []), vars) == Render(b, vars)
  {
    ThreeKeys(vars, b.key1, b.key2, b.key3);
    var ks := Keys(vars);
    var i1 :| 0 <= i1 < |ks| && ks[i1] == b.key1;
    var i2 :| 0 <= i2 < |ks| && ks[i2] == b.key2;
    var i3 :| 0 <= i3 < |ks| && ks[i3] == b.key3;
    assert vars[i1].0 == b.key1 && vars[i2].0 == b.key2 && vars[i3].0 == b.key3;
    LookupPresent(vars, i1);
    LookupPresent(vars, i2);
    LookupPresent(vars, i3);
    DistinctKeysFresh(vars);
    assert BraceFreeValues([]);
    FillAll(b, [], vars);
    assert [] + vars == vars;
  }

  /** Filled in any order, the body holds each value in its own slot and no placeholder. */
  lemma FilledInAnyOrder(b: SlotBody, vars: seq<(string, string)>)
    requires WellFormed(b)
    requires multiset(Keys(vars)) == multiset{b.key1, b.key2, b.key3}
    requires BraceFreeValues(vars) && DollarFree(vars)
    ensures Lookup(vars, b.key1).Some? && Lookup(vars, b.key2).Some? && Lookup(vars, b.key3).Some?
    ensures SubstituteAll(Render(b, []), vars)
         == b.head + (Lookup(vars, b.key1).value + (b.mid1 + (Lookup(vars, b.key2).value
            + (b.mid2 + (Lookup(vars, b.key3).value + b.tail)))))
    ensures forall key :: !Occurs(SubstituteAll(Render(b, []), vars), Placeholder(key))
  {
    FillAnyOrder(b, vars);
    LookupBraceFree(vars, b.key1);
    LookupBraceFree(vars, b.key2);
    LookupBraceFree(vars, b.key3);
    BraceFreePiecesNoPlaceholder(b.head, Lookup(vars, b.key1).value, b.mid1, Lookup(vars, b.key2).value,
      b.mid2, Lookup(vars, b.key3).value, b.tail);
  }

  /** The confirmation body seen as three slots. */
  const ConfirmationSlots: SlotBody :=
    SlotBody(ConfirmationHead, "appointmentDate", ConfirmationAfterDate, "appointmentTime",
             ConfirmationAfterTime, "customerName", ConfirmationTail)

  /** The confirmation body is a well-formed three-slot body with nothing filled. */
  lemma ConfirmationSlotsWellFormed()
    ensures WellFormed(ConfirmationSlots)
    ensures Render(ConfirmationSlots, []) == ConfirmationContent
  {
    ConfirmationFixedTextBraceFree();
  }

  /** Customizing the confirmation template is substituting into its three-slot body. */
  lemma ConfirmationAsSlots(vars: seq<(string, string)>)
    requires DollarFree(vars)
    ensures Customize(Template(Confirmation), vars) == SubstituteAll(Render(ConfirmationSlots, []), vars)
  {
    ConfirmationSlotsWellFormed();
  }

  /** Whatever order the date, time and name entries come in, the confirmation gets each value
      in its own slot and keeps no placeholder. */
  lemma ConfirmationAnyOrder(vars: seq<(string, string)>)
    requires multiset(Keys(vars)) == multiset{"appointmentDate", "appointmentTime", "customerName"}
    requires BraceFreeValues(vars) && DollarFree(vars)
    ensures Lookup(vars, "appointmentDate").Some? && Lookup(vars, "appointmentTime").Some?
    ensures Lookup(vars, "customerName").Some?
    ensures Customize(Template(Confirmation), vars)
         == ConfirmationHead + (Lookup(vars, "appointmentDate").value + (ConfirmationAfterDate
            + (Lookup(vars, "appointmentTime").value + (ConfirmationAfterTime
            + (Lookup(vars, "customerName").value + ConfirmationTail)))))
    ensures forall key :: !Occurs(Customize(Template(Confirmation), vars), Placeholder(key))
  {
    ConfirmationSlotsWellFormed();
    ConfirmationAsSlots(vars);
    FilledInAnyOrder(ConfirmationSlots, vars);
  }
}

=== FILE: options.dfy ===
/** A value that may be absent: stands for the TypeScript `T | null` fields of the form
    and for JavaScript's "not found" results. */
module Options {

  datatype Option<+T> = None | Some(value: T) {

    /** Returns the wrapped value, or `default` when there is none; it gives the placeholder
        text of a slot no entry has filled. */
    function GetOr(default: T): T {
      match this
      case Some(v) => v
      case None => default
    }
  }
}

=== FILE: reservation.dfy ===
/**
 The reservation request form of the booking page: the form state, the reducers its event
 handlers apply to it, and the booked-slot view flattened from stored reservations.
 */
module Reservation {
  import opened Options

  /** A candidate appointment time as the calendar widget hands it over. */
  datatype TimeSlot = TimeSlot(date: string, time: string)

  /** A file picked in a file input; its contents play no part in the logic. */
  datatype File = File(name: string)

  /** The form state (`FormData`). Age stays the text typed into the field. */
  datatype FormData = FormData(
    termsAgreed: bool,
    name: string,
    gender: string,
    age: string,
    phone: string,
    desiredService: string,
    referralSource: string,
    desiredSlots: seq<TimeSlot>,
    priorExperience: string,
    frontPhoto: Option<File>,
    closedPhoto: Option<File>)

  /** `handleServiceSelect`: choosing a service discards the slots chosen so far. */
  function SelectService(f: FormData, service: string): (r: FormData)
    ensures r.desiredService == service && r.desiredSlots == []
    ensures r.(desiredService := f.desiredService, desiredSlots := f.desiredSlots) == f
  {
    f.(desiredService := service, desiredSlots := [])
  }

  /** The terms checkbox's `onCheckedChange`. */
  function SetTermsAgreed(f: FormData, checked: bool): (r: FormData)
    ensures r.termsAgreed == checked
    ensures r.(termsAgreed := f.termsAgreed) == f
  {
    f.(termsAgreed := checked)
  }

  /* ---------------------------------------------------------------- chosen slots */

  /** The calendar's `onSelectSlot`: the new slot goes at the end. */
  function AddSlot(slots: seq<TimeSlot>, slot: TimeSlot): (r: seq<TimeSlot>)
    ensures |r| == |slots| + 1
    ensures r[..|slots|] == slots && r[|slots|] == slot
  {
    slots + [slot]
  }

  /** The removal test of `onRemoveSlot`: same date and same time. */
  predicate SameSlot(a: TimeSlot, b: TimeSlot) {
    a.date == b.date && a.time == b.time
  }

  /** The calendar's `onRemoveSlot`: keeps, in order, every slot that differs from the
      target in date or in time. */
  function RemoveSlot(slots: seq<TimeSlot>, target: TimeSlot): (r: seq<TimeSlot>)
    ensures forall s :: s in r <==> s in slots && !SameSlot(s, target)
    ensures multiset(r) == multiset(slots)[target := 0]
    ensures |r| <= |slots|
  {
    if |slots| == 0 then []
    else
      assert slots == [slots[0]] + slots[1..];
      if SameSlot(slots[0], target) then RemoveSlot(slots[1..], target)
      else [slots[0]] + RemoveSlot(slots[1..], target)
  }

  /** Removal works piece by piece: it keeps the relative order of what it keeps. */
  lemma {:induction false} RemoveSlotAppend(a: seq<TimeSlot>, b: seq<TimeSlot>, target: TimeSlot)
    ensures RemoveSlot(a + b, target) == RemoveSlot(a, target) + RemoveSlot(b, target)
  {
    if |a| == 0 {
      assert a + b == b;
    } else {
      assert (a + b)[0] == a[0];
      assert (a + b)[1..] == a[1..] + b;
      RemoveSlotAppend(a[1..], b, target);
    }
  }

  /** Removing a slot that is not chosen changes nothing. */
  lemma {:induction false} RemoveAbsentSlot(slots: seq<TimeSlot>, target: TimeSlot)
    requires target !in slots
    ensures RemoveSlot(slots, target) == slots
  {
    if |slots| > 0 {
      assert slots[0] != target;
      assert forall s :: s in slots[1..] ==> s in slots;
      RemoveAbsentSlot(slots[1..], target);
    }
  }

  /** Removing twice is removing once. */
  lemma RemoveSlotIdempotent(slots: seq<TimeSlot>, target: TimeSlot)
    ensures RemoveSlot(RemoveSlot(slots, target), target) == RemoveSlot(slots, target)
  {
    RemoveAbsentSlot(RemoveSlot(slots, target), target);
  }

  /** Adding a slot that was not chosen yet and removing it again gives back the same list. */
  lemma AddThenRemoveSlot(slots: seq<TimeSlot>, slot: TimeSlot)
    requires slot !in slots
    ensures RemoveSlot(AddSlot(slots, slot), slot) == slots
  {
    RemoveSlotAppend(slots, [slot], slot);
    RemoveAbsentSlot(slots, slot);
    assert RemoveSlot([slot], slot) == [] by {
      assert [slot][1..] == [];
    }
  }

  /** The delete button of the chosen-slot list: `filter((_, i) => i !== index)`. */
  function DeleteAt(slots: seq<TimeSlot>, index: nat): (r: seq<TimeSlot>)
    ensures index < |slots| ==> |r| == |slots| - 1
    ensures index < |slots| ==> r[..index] == slots[..index] && r[index..] == slots[index + 1..]
    ensures index >= |slots| ==> r == slots
  {
    if |slots| == 0 then []
    else if index == 0 then slots[1..]
    else [slots[0]] + DeleteAt(slots[1..], index - 1)
  }

  /** Putting the deleted slot back at its index restores the list. */
  lemma DeleteAtReinsert(slots: seq<TimeSlot>, index: nat)
    requires index < |slots|
    ensures var r := DeleteAt(slots, index); r[..index] + [slots[index]] + r[index..] == slots
  {
    assert slots == slots[..index] + [slots[index]] + slots[index + 1..];
  }

  /** All chosen slots are different. */
  predicate Distinct(slots: seq<TimeSlot>) {
    forall i, j :: 0 <= i < j < |slots| ==> slots[i] != slots[j]
  }

  /** On a list without repeats, deleting by index and removing by value agree. */
  lemma {:induction false} DeleteAtIsRemoveSlot(slots: seq<TimeSlot>, index: nat)
    requires Distinct(slots) && index < |slots|
    ensures DeleteAt(slots, index) == RemoveSlot(slots, slots[index])
  {
    var target := slots[index];
    DistinctTail(slots);
    if index == 0 {
      RemoveAbsentSlot(slots[1..], target);
    } else {
      assert slots[1..][index - 1] == target;
      DeleteAtIsRemoveSlot(slots[1..], index - 1);
      assert slots[0] != target;
    }
  }

  /** Without repeats, the first slot is not among the rest, and the rest has no repeats. */
  lemma DistinctTail(slots: seq<TimeSlot>)
    requires Distinct(slots) && |slots| > 0
    ensures slots[0] !in slots[1..] && Distinct(slots[1..])
  {
    forall j | 0 <= j < |slots[1..]| ensures slots[1..][j] != slots[0] {
      assert slots[1..][j] == slots[j + 1];
    }
    forall i, j | 0 <= i < j < |slots[1..]| ensures slots[1..][i] != slots[1..][j] {
      assert slots[1..][i] == slots[i + 1] && slots[1..][j] == slots[j + 1];
    }
  }

  /* ---------------------------------------------------------------- text and file inputs */

  /** The text inputs wired to `handleChange`, by their `name` attribute. */
  datatype TextField = Name | Gender | Age | Phone | ReferralSource | PriorExperience

  /** The file inputs wired to `handleChange`. */
  datatype PhotoField = FrontPhoto | ClosedPhoto

  /** A change event: new text in a text input, or the file list of a file input (empty when
      nothing is picked or the list is missing). */
  datatype ChangeEvent =
    | TextChange(field: TextField, value: string)
    | FileChange(photo: PhotoField, files: seq<File>)

  /** The form field behind a text input. */
  function TextOf(f: FormData, field: TextField): string {
    match field
    case Name => f.name
    case Gender => f.gender
    case Age => f.age
    case Phone => f.phone
    case ReferralSource => f.referralSource
    case PriorExperience => f.priorExperience
  }

  /** The form field behind a file input. */
  function PhotoOf(f: FormData, photo: PhotoField): Option<File> {
    match photo
    case FrontPhoto => f.frontPhoto
    case ClosedPhoto => f.closedPhoto
  }

  /** The terms flag, the service and the slots: what `handleChange` never touches. */
  predicate SameChoices(a: FormData, b: FormData) {
    a.termsAgreed == b.termsAgreed && a.desiredService == b.desiredService
    && a.desiredSlots == b.desiredSlots
  }

  /** `handleChange`: a text input stores its value; a file input stores its first file, or
      nothing when no file is picked. Every other field keeps its value. */
  function HandleChange(f: FormData, e: ChangeEvent): (r: FormData)
    ensures SameChoices(r, f)
    ensures e.TextChange? ==> TextOf(r, e.field) == e.value
    ensures e.TextChange? ==> forall g :: g != e.field ==> TextOf(r, g) == TextOf(f, g)
    ensures e.TextChange? ==> forall p :: PhotoOf(r, p) == PhotoOf(f, p)
    ensures e.FileChange? ==> PhotoOf(r, e.photo) == (if |e.files| > 0 then Some(e.files[0]) else None)
    ensures e.FileChange? ==> forall p :: p != e.photo ==> PhotoOf(r, p) == PhotoOf(f, p)
    ensures e.FileChange? ==> forall g :: TextOf(r, g) == TextOf(f, g)
  {
    match e
    case TextChange(field, value) =>
      (match field
       case Name => f.(name := value)
       case Gender => f.(gender := value)
       case Age => f.(age := value)
       case Phone => f.(phone := value)
       case ReferralSource => f.(referralSource := value)
       case PriorExperience => f.(priorExperience := value))
    case FileChange(photo, files) =>
      var picked := if |files| > 0 then Some(files[0]) else None;
      (match photo
       case FrontPhoto => f.(frontPhoto := picked)
       case ClosedPhoto => f.(closedPhoto := picked))
  }

  /* ---------------------------------------------------------------- booked slots */

  /** A stored reservation as the booked-slot query selects it. */
  datatype StoredReservation = StoredReservation(
    desiredSlots: seq<TimeSlot>, status: string, selectedSlot: Option<TimeSlot>, desiredService: string)

  /** One desired slot of a stored reservation, labelled with that reservation's data. */
  datatype BookedSlot = BookedSlot(
    date: string, time: string, status: string, selectedSlot: Option<TimeSlot>, serviceType: string)

  /** The record `fetchReservedSlots` builds for one slot of one reservation. */
  function Booked(res: StoredReservation, slot: TimeSlot): BookedSlot {
    BookedSlot(slot.date, slot.time, res.status, res.selectedSlot, res.desiredService)
  }

  /** The inner `map`: one record per desired slot of a reservation, in slot order. */
  function BookedOf(res: StoredReservation): (r: seq<BookedSlot>)
    ensures |r| == |res.desiredSlots|
    ensures forall j :: 0 <= j < |r| ==> r[j] == Booked(res, res.desiredSlots[j])
  {
    seq(|res.desiredSlots|, j requires 0 <= j < |res.desiredSlots| => Booked(res, res.desiredSlots[j]))
  }

  /** The number of desired slots over all reservations. */
  function TotalSlots(rs: seq<StoredReservation>): nat {
    if |rs| == 0 then 0 else |rs[0].desiredSlots| + TotalSlots(rs[1..])
  }

  /** The outer `flatMap`: reservation after reservation, slot after slot. */
  function Flatten(rs: seq<StoredReservation>): (r: seq<BookedSlot>)
    ensures |r| == TotalSlots(rs)
  {
    if |rs| == 0 then [] else BookedOf(rs[0]) + Flatten(rs[1..])
  }

  /** Flattening two lists of reservations one after the other. */
  lemma {:induction false} FlattenAppend(a: seq<StoredReservation>, b: seq<StoredReservation>)
    ensures Flatten(a + b) == Flatten(a) + Flatten(b)
    ensures TotalSlots(a + b) == TotalSlots(a) + TotalSlots(b)
  {
    if |a| == 0 {
      assert a + b == b;
    } else {
      assert (a + b)[0] == a[0];
      assert (a + b)[1..] == a[1..] + b;
      FlattenAppend(a[1..], b);
    }
  }

  /** Slot `j` of reservation `k` sits right after the slots of the reservations before `k`,
      and carries reservation `k`'s status, chosen slot and service. */
  lemma {:induction false} FlattenAt(rs: seq<StoredReservation>, k: nat, j: nat)
    requires k < |rs| && j < |rs[k].desiredSlots|
    ensures TotalSlots(rs[..k]) + j < |Flatten(rs)|
    ensures Flatten(rs)[TotalSlots(rs[..k]) + j] == Booked(rs[k], rs[k].desiredSlots[j])
  {
    var before, here, after := rs[..k], BookedOf(rs[k]), rs[k + 1..];
    assert rs == before + ([rs[k]] + after);
    FlattenAppend(before, [rs[k]] + after);
    assert ([rs[k]] + after)[0] == rs[k] && ([rs[k]] + after)[1..] == after;
    assert Flatten([rs[k]] + after) == here + Flatten(after);
    var a, c := Flatten(before), Flatten(after);
    assert Flatten(rs) == a + (here + c);
    assert (a + (here + c))[|a| + j] == here[j];
  }

  /** `fetchReservedSlots`: a failed query leaves the booked-slot list as it was; otherwise
      the list becomes the flattened reservations. */
  function LoadReservedSlots(current: seq<BookedSlot>, fetched: Option<seq<StoredReservation>>): (r: seq<BookedSlot>)
    ensures fetched.None? ==> r == current
    ensures fetched.Some? ==> r == Flatten(fetched.value)
    ensures fetched.Some? ==> |r| == TotalSlots(fetched.value)
  {
    match fetched
    case None => current
    case Some(rows) => Flatten(rows)
  }
}

=== FILE: strings.dfy ===
/**
 The part of JavaScript's `String.prototype.replace` that the message templates rely on:
 with a string (not a regular expression) as the pattern, only the FIRST occurrence of the
 pattern is replaced, and a string with no occurrence comes back unchanged.
 */
module Strings {

  /** `p` occurs in `s` starting at index `i`. */
  predicate OccursAt(s: string, p: string, i: nat) {
    i + |p| <= |s| && s[i..i + |p|] == p
  }

  /** `p` occurs somewhere in `s`. */
  predicate Occurs(s: string, p: string) {
    exists i: nat | i <= |s| :: OccursAt(s, p, i)
  }

  /** `i` is the leftmost occurrence of `p` in `s`. */
  predicate FirstOccurrence(s: string, p: string, i: nat) {
    OccursAt(s, p, i) && forall j: nat :: j < i ==> !OccursAt(s, p, j)
  }

  /** `s.replace(p, v)` for a replacement `v` free of `$` (JavaScript gives `$&`, `$$`,
      `` $` `` and `$'` a special meaning in `v`; those patterns are not modelled). The
      string is scanned from the left; at the first position where `p` starts, `p` is
      replaced by `v` and the scan stops. An empty pattern matches at the start. */
  function ReplaceFirst(s: string, p: string, v: string): string
    requires '$' !in v
    decreases |s|
  {
    if |p| <= |s| && s[..|p|] == p then v + s[|p|..]
    else if |s| == 0 then s
    else [s[0]] + ReplaceFirst(s[1..], p, v)
  }

  /** The replacement is the one the language defines: no occurrence leaves the string as it
      is, otherwise `v` takes the place of the leftmost occurrence and nothing else changes. */
  lemma ReplaceFirstSpec(s: string, p: string, v: string)
    requires '$' !in v
    ensures !Occurs(s, p) ==> ReplaceFirst(s, p, v) == s
    ensures forall i: nat :: FirstOccurrence(s, p, i) ==> ReplaceFirst(s, p, v) == s[..i] + v + s[i + |p|..]
  {
    if !Occurs(s, p) {
      ReplaceFirstAbsent(s, p, v);
    }
    forall i: nat | FirstOccurrence(s, p, i)
      ensures ReplaceFirst(s, p, v) == s[..i] + v + s[i + |p|..]
    {
      ReplaceFirstAt(s, p, v, i);
    }
  }

  /** Dropping the first character shifts every later occurrence by one. */
  lemma OccursBehindHead(s: string, p: string, i: nat)
    requires |s| > 0
    ensures OccursAt(s[1..], p, i) <==> OccursAt(s, p, i + 1)
  {
    assert s == [s[0]] + s[1..];
    OccursShift([s[0]], s[1..], p, i);
  }

  /** Without an occurrence the scan reaches the end and changes nothing. */
  lemma {:induction false} ReplaceFirstAbsent(s: string, p: string, v: string)
    requires '$' !in v && !Occurs(s, p)
    ensures ReplaceFirst(s, p, v) == s
    decreases |s|
  {
    assert !OccursAt(s, p, 0);
    if |s| > 0 {
      if Occurs(s[1..], p) {
        var j: nat :| j <= |s[1..]| && OccursAt(s[1..], p, j);
        OccursBehindHead(s, p, j);
        assert false;
      }
      ReplaceFirstAbsent(s[1..], p, v);
      assert s == [s[0]] + s[1..];
    }
  }

  /** The scan stops at the leftmost occurrence and splices `v` in there. */
  lemma {:induction false} ReplaceFirstAt(s: string, p: string, v: string, i: nat)
    requires '$' !in v && FirstOccurrence(s, p, i)
    ensures ReplaceFirst(s, p, v) == s[..i] + v + s[i + |p|..]
    decreases i
  {
    if i == 0 {
      ReplaceFirstAtHead(s, p, v);
      assert s[..0] + v + s[|p|..] == v + s[|p|..];
    } else {
      var t := s[1..];
      FirstOccurrenceBehindHead(s, p, i);
      ReplaceFirstAt(t, p, v, i - 1);
      ReplaceFirstSkipsHead(s, p, v);
      SpliceBehindHead(s, i - 1, |p|, v);
    }
  }

  /** Where `p` starts, the scan replaces it and stops. */
  lemma ReplaceFirstAtHead(s: string, p: string, v: string)
    requires '$' !in v && OccursAt(s, p, 0)
    ensures ReplaceFirst(s, p, v) == v + s[|p|..]
  {
    assert s[..|p|] == p;
  }

  /** A leftmost occurrence after the first character is, in the rest, one position
      earlier. */
  lemma FirstOccurrenceBehindHead(s: string, p: string, i: nat)
    requires FirstOccurrence(s, p, i) && i > 0
    ensures !OccursAt(s, p, 0) && FirstOccurrence(s[1..], p, i - 1)
  {
    OccursBehindHead(s, p, i - 1);
    forall j: nat | j < i - 1 ensures !OccursAt(s[1..], p, j) {
      OccursBehindHead(s, p, j);
    }
  }

  /** Where `p` does not start, the scan keeps the first character and moves on. */
  lemma ReplaceFirstSkipsHead(s: string, p: string, v: string)
    requires '$' !in v && |s| > 0 && !OccursAt(s, p, 0)
    ensures ReplaceFirst(s, p, v) == [s[0]] + ReplaceFirst(s[1..], p, v)
  {
  }

  /** Splicing in the rest and putting the first character back is splicing one position
      further in the whole string. */
  lemma SpliceBehindHead(s: string, j: nat, n: nat, v: string)
    requires |s| > 0 && j + n <= |s| - 1
    ensures [s[0]] + (s[1..][..j] + v + s[1..][j + n..]) == s[..j + 1] + v + s[j + 1 + n..]
  {
    assert s[..j + 1] == [s[0]] + s[1..][..j];
    assert s[j + 1 + n..] == s[1..][j + n..];
  }

  /** Replacing at the leftmost occurrence keeps the text before it and the text after it. */
  lemma ReplaceFirstKeepsContext(s: string, p: string, v: string, i: nat)
    requires '$' !in v
    requires FirstOccurrence(s, p, i)
    ensures |ReplaceFirst(s, p, v)| == |s| - |p| + |v|
    ensures ReplaceFirst(s, p, v)[..i] == s[..i]
    ensures ReplaceFirst(s, p, v)[i..i + |v|] == v
    ensures ReplaceFirst(s, p, v)[i + |v|..] == s[i + |p|..]
  {
    ReplaceFirstAt(s, p, v, i);
  }

  /** Occurrences in `post` are the occurrences in `pre + post` shifted by `|pre|`. */
  lemma OccursShift(pre: string, post: string, p: string, j: nat)
    ensures OccursAt(post, p, j) <==> OccursAt(pre + post, p, |pre| + j)
  {
    if j + |p| <= |post| {
      assert (pre + post)[|pre| + j..|pre| + j + |p|] == post[j..j + |p|];
    }
  }

  /** The string has no opening brace, so no placeholder can start in it. */
  predicate NoBrace(s: string) {
    '{' !in s
  }

  /** An occurrence of a pattern that starts with `{` sits on a `{` of the string. */
  lemma OccurrenceOnBrace(s: string, p: string, i: nat)
    requires |p| > 0 && p[0] == '{'
    requires OccursAt(s, p, i)
    ensures i < |s| && s[i] == '{'
  {
    assert s[i..i + |p|][0] == s[i];
  }

  /** A brace-free string holds no pattern that starts with `{`. */
  lemma NoBraceNoOccurrence(s: string, p: string)
    requires |p| > 0 && p[0] == '{'
    requires NoBrace(s)
    ensures !Occurs(s, p)
  {
    if Occurs(s, p) {
      var i: nat :| OccursAt(s, p, i);
      OccurrenceOnBrace(s, p, i);
    }
  }

  /** Behind a brace-free prefix, every occurrence of a pattern that starts with `{` lies in
      the rest of the string. */
  lemma OccurrenceBehindBraceFreePrefix(pre: string, post: string, p: string, i: nat)
    requires |p| > 0 && p[0] == '{'
    requires NoBrace(pre)
    requires OccursAt(pre + post, p, i)
    ensures i >= |pre| && OccursAt(post, p, i - |pre|)
  {
    OccurrenceOnBrace(pre + post, p, i);
    if i >= |pre| {
      OccursShift(pre, post, p, i - |pre|);
    }
  }

  /** Replacing a pattern that starts with `{` leaves a brace-free string unchanged. */
  lemma NoBraceUnchanged(s: string, p: string, v: string)
    requires |p| > 0 && p[0] == '{'
    requires NoBrace(s) && '$' !in v
    ensures ReplaceFirst(s, p, v) == s
  {
    NoBraceNoOccurrence(s, p);
    ReplaceFirstSpec(s, p, v);
  }

  /** A brace-free prefix does not take part in the replacement of a pattern that starts
      with `{`: only the rest of the string changes. */
  lemma {:induction false} ReplaceUnderBraceFreePrefix(pre: string, post: string, p: string, v: string)
    requires |p| > 0 && p[0] == '{'
    requires NoBrace(pre) && '$' !in v
    ensures ReplaceFirst(pre + post, p, v) == pre + ReplaceFirst(post, p, v)
    decreases |pre|
  {
    if |pre| > 0 {
      var s := pre + post;
      assert s[0] == pre[0] != '{';
      assert s[1..] == pre[1..] + post;
      ReplaceUnderBraceFreePrefix(pre[1..], post, p, v);
      assert pre == [pre[0]] + pre[1..];
    } else {
      assert pre + post == post;
    }
  }

  /** A prefix at none of whose positions the pattern starts does not take part in the
      replacement: only the rest of the string changes. */
  lemma {:induction false} ReplaceBehindPrefix(pre: string, post: string, p: string, v: string)
    requires '$' !in v
    requires forall i: nat :: i < |pre| ==> !OccursAt(pre + post, p, i)
    ensures ReplaceFirst(pre + post, p, v) == pre + ReplaceFirst(post, p, v)
    decreases |pre|
  {
    if |pre| > 0 {
      var s := pre + post;
      assert !OccursAt(s, p, 0);
      ReplaceFirstSkipsHead(s, p, v);
      assert s[1..] == pre[1..] + post;
      forall i: nat | i < |pre[1..]|
        ensures !OccursAt(pre[1..] + post, p, i)
      {
        OccursBehindHead(s, p, i);
      }
      ReplaceBehindPrefix(pre[1..], post, p, v);
      assert pre == [pre[0]] + pre[1..];
    } else {
      assert pre + post == post;
    }
  }

  /** A string that starts with the pattern has its first `|p|` characters replaced. */
  lemma ReplaceAtStart(p: string, post: string, v: string)
    requires '$' !in v
    ensures ReplaceFirst(p + post, p, v) == v + post
  {
    var s := p + post;
    assert s[..|p|] == p;
    assert s[|p|..] == post;
  }
}

=== FILE: submission.dfy ===
/**
 The decision flow of the booking page's `handleSubmit`. Every backend call is replaced by
 the answer an oracle (`Backend`) gives to it, and a run records the calls it made, in order.
 */
module Submission {
  import opened Options
  import opened Reservation

  /** What storage answers to a photo upload: the stored path, or an error. */
  datatype UploadAnswer = Stored(path: string) | UploadError

  /** What the database answers to the insert. */
  datatype InsertAnswer = InsertOk | InsertError

  /** The answers the backend would give to each call; an answer is consulted only when its
      call is made. `pendingRows` is the data of the duplicate query: the number of pending
      reservations for the phone, or `None` when the query returns no data (its error is not
      looked at). */
  datatype Backend = Backend(
    pendingRows: Option<nat>,
    frontUpload: UploadAnswer,
    closedUpload: UploadAnswer,
    insert: InsertAnswer)

  /** Which of the two photos an upload carries (its storage path ends in `_front` or
      `_closed`). */
  datatype PhotoSide = Front | Closed

  /** The row inserted into `reservations`. */
  datatype ReservationRecord = ReservationRecord(
    customerName: string,
    gender: string,
    age: string,
    phone: string,
    desiredService: string,
    referralSource: string,
    desiredSlots: seq<TimeSlot>,
    priorExperience: string,
    frontPhotoUrl: Option<string>,
    closedPhotoUrl: Option<string>,
    status: string)

  /** A backend call. */
  datatype Call =
    | PendingQuery(phone: string)
    | Upload(side: PhotoSide, file: File)
    | Insert(record: ReservationRecord)

  /** The alerts the page shows: the two specific ones and the generic failure. */
  datatype Alert = TermsNotRead | AlreadyPending | RequestFailed

  /** The outcome of one submit: the calls made, the new `submitted` flag, the alert shown. */
  datatype SubmitRun = SubmitRun(calls: seq<Call>, submitted: bool, alert: Option<Alert>)

  /** The answer storage gives for one side. */
  function UploadAnswerFor(b: Backend, side: PhotoSide): UploadAnswer {
    match side
    case Front => b.frontUpload
    case Closed => b.closedUpload
  }

  /** The result of the optional upload of one photo. */
  datatype PhotoStep = PhotoStep(calls: seq<Call>, failed: bool, url: Option<string>)

  /** Uploads a photo when one is picked; no photo means no call and no URL. */
  function UploadPhoto(side: PhotoSide, photo: Option<File>, answer: UploadAnswer): (r: PhotoStep)
    ensures photo.None? <==> r.calls == []
    ensures photo.Some? ==> r.calls == [Upload(side, photo.value)]
    ensures r.failed <==> photo.Some? && answer.UploadError?
    ensures r.url.Some? <==> photo.Some? && answer.Stored?
    ensures r.url.Some? ==> r.url.value == answer.path
  {
    match photo
    case None => PhotoStep([], false, None)
    case Some(file) =>
      match answer
      case Stored(path) => PhotoStep([Upload(side, file)], false, Some(path))
      case UploadError => PhotoStep([Upload(side, file)], true, None)
  }

  /** The row built from the form and the photo paths; it is always created as pending. */
  function RecordOf(f: FormData, frontUrl: Option<string>, closedUrl: Option<string>): ReservationRecord {
    ReservationRecord(f.name, f.gender, f.age, f.phone, f.desiredService, f.referralSource,
                      f.desiredSlots, f.priorExperience, frontUrl, closedUrl, "pending")
  }

  /** The duplicate check stops the submission when the query returns pending rows. */
  predicate HasPending(b: Backend) {
    b.pendingRows.Some? && b.pendingRows.value > 0
  }

  /** `handleSubmit`: terms check, duplicate check, optional front upload, optional closed
      upload, insert, and `submitted` set on success. Any failure ends the attempt with an
      alert; nothing is retried. */
  function Submit(f: FormData, submitted: bool, b: Backend): (r: SubmitRun)
    ensures !f.termsAgreed ==> r.calls == [] && r.submitted == submitted && r.alert == Some(TermsNotRead)
    ensures f.termsAgreed ==> |r.calls| > 0 && r.calls[0] == PendingQuery(f.phone)
    ensures f.termsAgreed && HasPending(b) ==>
      r.calls == [PendingQuery(f.phone)] && r.submitted == submitted && r.alert == Some(AlreadyPending)
  {
    if !f.termsAgreed then SubmitRun([], submitted, Some(TermsNotRead))
    else
      var query := [PendingQuery(f.phone)];
      if HasPending(b) then SubmitRun(query, submitted, Some(AlreadyPending))
      else
        var front := UploadPhoto(Front, f.frontPhoto, b.frontUpload);
        if front.failed then SubmitRun(query + front.calls, submitted, Some(RequestFailed))
        else
          var closed := UploadPhoto(Closed, f.closedPhoto, b.closedUpload);
          if closed.failed then SubmitRun(query + front.calls + closed.calls, submitted, Some(RequestFailed))
          else
            var calls := query + front.calls + closed.calls + [Insert(RecordOf(f, front.url, closed.url))];
            assert calls[1..] == front.calls + (closed.calls + [calls[|calls| - 1]]);
            if b.insert.InsertError? then SubmitRun(calls, submitted, Some(RequestFailed))
            else SubmitRun(calls, true, None)
  }

  /* ---------------------------------------------------------------- what a submit does */

  /** Every submit produces a well-formed call sequence. */
  lemma SubmitIsTrace(f: FormData, submitted: bool, b: Backend)
    ensures IsSubmitTrace(Submit(f, submitted, b).calls)
  {
    var r := Submit(f, submitted, b);
    if f.termsAgreed && !HasPending(b) {
      var front := UploadPhoto(Front, f.frontPhoto, b.frontUpload);
      assert r.calls[0] == PendingQuery(f.phone);
      if front.failed {
        assert r.calls[1..] == front.calls;
        UploadsThenInsert(front.calls, [], []);
      } else {
        var closed := UploadPhoto(Closed, f.closedPhoto, b.closedUpload);
        if closed.failed {
          assert r.calls[1..] == front.calls + closed.calls;
          UploadsThenInsert(front.calls, closed.calls, []);
        } else {
          var ins := [Insert(RecordOf(f, front.url, closed.url))];
          assert r.calls[1..] == front.calls + closed.calls + ins;
          UploadsThenInsert(front.calls, closed.calls, ins);
        }
      }
    }
  }

  /** `submitted` becomes true exactly when the insert is made and succeeds (or it already
      was); the page shows no alert exactly then, and otherwise one of its three alerts,
      the generic one for a failed upload or insert. */
  lemma SubmitOutcome(f: FormData, submitted: bool, b: Backend)
    ensures var r := Submit(f, submitted, b);
      && (r.submitted <==> submitted || (HasInsert(r.calls) && b.insert.InsertOk?))
      && (r.alert.None? <==> HasInsert(r.calls) && b.insert.InsertOk?)
      && (r.alert == Some(RequestFailed) <==>
            f.termsAgreed && !HasPending(b) && (UploadFailedIn(r.calls, b) || b.insert.InsertError?))
  {
    var r := Submit(f, submitted, b);
    if !f.termsAgreed || HasPending(b) {
      assert r.calls == [] || r.calls == [PendingQuery(f.phone)];
      assert !HasInsert(r.calls) && !UploadFailedIn(r.calls, b);
    } else {
      var query := [PendingQuery(f.phone)];
      var front := UploadPhoto(Front, f.frontPhoto, b.frontUpload);
      if front.failed {
        assert r.calls == query + [Upload(Front, f.frontPhoto.value)];
        assert r.calls[1] in r.calls;
        assert !HasInsert(r.calls);
      } else {
        var closed := UploadPhoto(Closed, f.closedPhoto, b.closedUpload);
        if closed.failed {
          assert r.calls == query + front.calls + [Upload(Closed, f.closedPhoto.value)];
          assert r.calls[|r.calls| - 1] in r.calls;
          assert !HasInsert(r.calls);
        } else {
          var calls := query + front.calls + closed.calls + [Insert(RecordOf(f, front.url, closed.url))];
          assert r.calls == calls;
          assert calls[|calls| - 1] in calls;
          assert !UploadFailedIn(r.calls, b);
        }
      }
    }
  }

  /** A failed upload ends the attempt: no row is inserted, `submitted` keeps its value and
      the generic alert is shown. */
  lemma FailedUploadStopsSubmit(f: FormData, submitted: bool, b: Backend)
    ensures var r := Submit(f, submitted, b);
      UploadFailedIn(r.calls, b) ==>
        !HasInsert(r.calls) && r.submitted == submitted && r.alert == Some(RequestFailed)
  {
    SubmitOutcome(f, submitted, b);
    var r := Submit(f, submitted, b);
    if f.termsAgreed && !HasPending(b) {
      var query := [PendingQuery(f.phone)];
      var front := UploadPhoto(Front, f.frontPhoto, b.frontUpload);
      if !front.failed {
        var closed := UploadPhoto(Closed, f.closedPhoto, b.closedUpload);
        if closed.failed {
          assert r.calls == query + front.calls + closed.calls;
          assert forall c :: c in r.calls ==> !c.Insert?;
        } else {
          var calls := query + front.calls + closed.calls + [Insert(RecordOf(f, front.url, closed.url))];
          assert r.calls == calls;
          assert forall c :: c in calls && c.Upload? ==> !UploadAnswerFor(b, c.side).UploadError?;
        }
      }
    }
  }

  /** Only the picked photos are uploaded, each from its own input; and once the duplicate
      check passes, a picked front photo is always uploaded, and a picked closed-eyes photo
      is uploaded unless the front upload failed. */
  lemma SubmitUploadsPickedPhotos(f: FormData, submitted: bool, b: Backend)
    ensures var r := Submit(f, submitted, b);
      && (forall c :: c in r.calls && c.Upload? ==> PhotoOf(f, PhotoFieldOf(c.side)) == Some(c.file))
      && (f.termsAgreed && !HasPending(b) && f.frontPhoto.Some? ==>
            Upload(Front, f.frontPhoto.value) in r.calls)
      && (f.termsAgreed && !HasPending(b) && f.closedPhoto.Some? && !(f.frontPhoto.Some? && b.frontUpload.UploadError?) ==>
            Upload(Closed, f.closedPhoto.value) in r.calls)
  {
    var r := Submit(f, submitted, b);
    if f.termsAgreed && !HasPending(b) {
      var query := [PendingQuery(f.phone)];
      var front := UploadPhoto(Front, f.frontPhoto, b.frontUpload);
      if front.failed {
        assert r.calls == query + front.calls;
      } else {
        var closed := UploadPhoto(Closed, f.closedPhoto, b.closedUpload);
        var ins := if closed.failed then [] else [Insert(RecordOf(f, front.url, closed.url))];
        assert r.calls == query + front.calls + closed.calls + ins;
        assert forall c :: c in r.calls <==> c in query || c in front.calls || c in closed.calls || c in ins;
      }
    }
  }

  /** The inserted row holds the form's fields, the status `pending`, and for each photo the
      path storage returned for its upload, or no path when no photo was picked. */
  lemma SubmitInsertsPendingRecord(f: FormData, submitted: bool, b: Backend)
    ensures var r := Submit(f, submitted, b);
      forall c :: c in r.calls && c.Insert? ==> PendingRecordOf(c.record, f, r.calls, b)
  {
    var r := Submit(f, submitted, b);
    if f.termsAgreed && !HasPending(b) {
      var query := [PendingQuery(f.phone)];
      var front := UploadPhoto(Front, f.frontPhoto, b.frontUpload);
      if front.failed {
        assert r.calls == query + front.calls;
      } else {
        var closed := UploadPhoto(Closed, f.closedPhoto, b.closedUpload);
        if closed.failed {
          assert r.calls == query + front.calls + closed.calls;
        } else {
          var rec := RecordOf(f, front.url, closed.url);
          assert r.calls == query + front.calls + closed.calls + [Insert(rec)];
          assert f.frontPhoto.Some? ==> r.calls[1] == Upload(Front, f.frontPhoto.value);
          assert f.closedPhoto.Some? ==> r.calls[|r.calls| - 2] == Upload(Closed, f.closedPhoto.value);
          assert PendingRecordOf(rec, f, r.calls, b);
        }
      }
    }
  }

  /** The query returning no data is treated like one returning no rows. */
  lemma PendingNullProceeds(f: FormData, submitted: bool, b: Backend)
    ensures Submit(f, submitted, b.(pendingRows := None)) == Submit(f, submitted, b.(pendingRows := Some(0)))
  {
  }

  /** The whole flow with both photos picked and every call succeeding. */
  lemma SubmitHappyPath(f: FormData, submitted: bool, b: Backend, front: File, closed: File, frontPath: string, closedPath: string)
    requires f.termsAgreed && !HasPending(b)
    requires f.frontPhoto == Some(front) && f.closedPhoto == Some(closed)
    requires b.frontUpload == Stored(frontPath) && b.closedUpload == Stored(closedPath) && b.insert == InsertOk
    ensures Submit(f, submitted, b) == SubmitRun(
      [PendingQuery(f.phone), Upload(Front, front), Upload(Closed, closed),
       Insert(ReservationRecord(f.name, f.gender, f.age, f.phone, f.desiredService, f.referralSource,
                                f.desiredSlots, f.priorExperience, Some(frontPath), Some(closedPath), "pending"))],
      true, None)
  {
  }

  /** Without photos the insert follows the duplicate query directly, with no photo paths. */
  lemma SubmitWithoutPhotos(f: FormData, submitted: bool, b: Backend)
    requires f.termsAgreed && !HasPending(b) && f.frontPhoto.None? && f.closedPhoto.None?
    ensures var r := Submit(f, submitted, b);
      && |r.calls| == 2 && r.calls[0] == PendingQuery(f.phone) && r.calls[1].Insert?
      && r.calls[1].record.frontPhotoUrl.None? && r.calls[1].record.closedPhotoUrl.None?
  {
  }

  /** A failed insert comes after all uploads, leaves `submitted` as it was and shows the
      generic alert. */
  lemma SubmitInsertFails(f: FormData, submitted: bool, b: Backend)
    requires f.termsAgreed && !HasPending(b) && b.insert == InsertError
    requires !(f.frontPhoto.Some? && b.frontUpload.UploadError?)
    requires !(f.closedPhoto.Some? && b.closedUpload.UploadError?)
    ensures var r := Submit(f, submitted, b);
      && r.calls[|r.calls| - 1].Insert? && r.submitted == submitted && r.alert == Some(RequestFailed)
  {
  }

  /* ---------------------------------------------------------------- the trace grammar */

  /** Optional front upload, optional closed upload, optional insert is what may follow the
      duplicate query. */
  lemma UploadsThenInsert(front: seq<Call>, closed: seq<Call>, ins: seq<Call>)
    requires front == [] || (|front| == 1 && front[0].Upload? && front[0].side == Front)
    requires closed == [] || (|closed| == 1 && closed[0].Upload? && closed[0].side == Closed)
    requires ins == [] || (|ins| == 1 && ins[0].Insert?)
    ensures AfterQuery(front + closed + ins)
  {
    var calls := front + closed + ins;
    if front != [] {
      assert calls[1..] == closed + ins;
      if closed != [] {
        assert calls[2..] == ins;
      }
    } else if closed != [] {
      assert calls[1..] == ins;
    }
  }

  /** In a well-formed trace the insert is made at most once, as the last call, and the
      duplicate query only first. */
  lemma {:induction false} TraceOrder(calls: seq<Call>)
    requires IsSubmitTrace(calls)
    ensures forall i :: 0 <= i < |calls| && calls[i].Insert? ==> i == |calls| - 1
    ensures forall i :: 0 <= i < |calls| && calls[i].PendingQuery? ==> i == 0
    ensures |calls| <= 4
  {
    if |calls| > 0 {
      var t := calls[1..];
      assert AfterQuery(t);
      if AfterFront(t) {
        AfterFrontOrder(t);
      } else {
        AfterFrontOrder(t[1..]);
      }
    }
  }

  /** The same for what may follow the front upload. */
  lemma AfterFrontOrder(calls: seq<Call>)
    requires AfterFront(calls)
    ensures forall i :: 0 <= i < |calls| ==> calls[i].Insert? ==> i == |calls| - 1
    ensures forall i :: 0 <= i < |calls| ==> !calls[i].PendingQuery?
    ensures |calls| <= 2
  {
  }

  /* ---------------------------------------------------------------- trace vocabulary */

  /** The file input a photo side comes from. */
  function PhotoFieldOf(side: PhotoSide): PhotoField {
    match side
    case Front => FrontPhoto
    case Closed => ClosedPhoto
  }

  /** The run made the insert call. */
  predicate HasInsert(calls: seq<Call>) {
    exists c :: c in calls && c.Insert?
  }

  /** The run made an upload call that storage answered with an error. */
  predicate UploadFailedIn(calls: seq<Call>, b: Backend) {
    exists c :: c in calls && c.Upload? && UploadAnswerFor(b, c.side).UploadError?
  }

  /** The row carries the form's fields and the status `pending`. */
  predicate FieldsFromForm(rec: ReservationRecord, f: FormData) {
    && rec.status == "pending"
    && rec.customerName == f.name && rec.gender == f.gender && rec.age == f.age
    && rec.phone == f.phone && rec.desiredService == f.desiredService
    && rec.referralSource == f.referralSource && rec.desiredSlots == f.desiredSlots
    && rec.priorExperience == f.priorExperience
  }

  /** The row has a front photo path exactly when a front photo was picked, and it is the
      path storage returned for that photo's upload. */
  predicate FrontPhotoRecorded(rec: ReservationRecord, f: FormData, calls: seq<Call>, b: Backend) {
    && (rec.frontPhotoUrl.Some? <==> f.frontPhoto.Some?)
    && (rec.frontPhotoUrl.Some? ==>
          Upload(Front, f.frontPhoto.value) in calls && b.frontUpload == Stored(rec.frontPhotoUrl.value))
  }

  /** The same for the closed-eyes photo. */
  predicate ClosedPhotoRecorded(rec: ReservationRecord, f: FormData, calls: seq<Call>, b: Backend) {
    && (rec.closedPhotoUrl.Some? <==> f.closedPhoto.Some?)
    && (rec.closedPhotoUrl.Some? ==>
          Upload(Closed, f.closedPhoto.value) in calls && b.closedUpload == Stored(rec.closedPhotoUrl.value))
  }

  /** The inserted row: the form's fields, status `pending`, and the uploaded photo paths. */
  predicate PendingRecordOf(rec: ReservationRecord, f: FormData, calls: seq<Call>, b: Backend) {
    FieldsFromForm(rec, f) && FrontPhotoRecorded(rec, f, calls, b) && ClosedPhotoRecorded(rec, f, calls, b)
  }

  /** The call sequences a submit can produce: nothing, or the duplicate query followed by an
      optional front upload, an optional closed upload and an optional insert, in that
      order. */
  predicate IsSubmitTrace(calls: seq<Call>) {
    |calls| == 0 || (calls[0].PendingQuery? && AfterQuery(calls[1..]))
  }

  /** What may follow the duplicate query. */
  predicate AfterQuery(calls: seq<Call>) {
    AfterFront(calls) || (|calls| > 0 && calls[0].Upload? && calls[0].side == Front && AfterFront(calls[1..]))
  }

  /** What may follow the front upload. */
  predicate AfterFront(calls: seq<Call>) {
    AfterClosed(calls) || (|calls| > 0 && calls[0].Upload? && calls[0].side == Closed && AfterClosed(calls[1..]))
  }

  /** What may follow the closed upload: at most the insert. */
  predicate AfterClosed(calls: seq<Call>) {
    |calls| == 0 || (|calls| == 1 && calls[0].Insert?)
  }
}

=== FILE: templates.dfy ===
/**
 The canned notification messages staff copy when messaging customers, and the placeholder
 substitution applied to them (`customizeMessage`).
 */
module Templates {
  import opened Strings

  /** A message template: a title, a body, and whether the body holds `{name}` placeholders. */
  datatype MessageTemplate = MessageTemplate(title: string, content: string, requiresCustomization: bool)

  /** The keys of the static template table. */
  datatype TemplateId = DepositGuide | Confirmation

  /** Body of the deposit instructions, reproduced character for character. */
  const DepositGuideContent: string :=
    "•예약금 안내•\n"
    + "  ❗예약금 5만원 입금 후 예약완료 됩니다. \n"
    + "  동반예약은 1명이 같이 신청하는 경우는 2명분 입금부탁드립니다.\n"
    + "  *입금기한 : 1시간 이내로 입금해주시면 예약확정*\n"
    + "  3333113961313 카카오뱅크 김도희\n"
    + "  - 키뮤에서는 100% 예약제로 운영되며, \n"
    + "  고객님 한 분만을 위하여 예약시간을 비워놓습니다.\n"
    + "  이러한 특성상 예약금은 약속보증의 의미로 미리 선입금 받고있으며, 시술금액에서 미리 입금하신 예약금 5만원은 차감됩니다.\n"
    + "  - 상세위치 안내는 예약금 입금 확인 이후에 안내드립니다. (신사역 8번출구 도보 10분거리)\n"
    + "  - 1인샵 특성상 한분 한분에게 최선의 집중을 위하여 하루 전 예약취소 및 노쇼로 인한 예약금은 환불 불가합니다. 신중한 예약을 부탁드립니다."

  /* The confirmation body, piece by piece. Lines 3 to 5 carry the placeholders; the longer
     lines are cut in two so that each literal stays small enough to check character by
     character. */
  const ConfirmationLine1: string := "•예약 확정 안내•"
  const ConfirmationLine2: string := "  예약금 확인 완료되어, 예약확정 안내드립니다🎀"
  const ConfirmationLine3Start: string := "  아래 내용 확인 부탁드리며, 시술 당일날 "
  const ConfirmationLine3End: string := "다시한 번 연락드리겠습니다 :) "
  const ConfirmationDateLabel: string := "  ▶ 예약일 : "
  const ConfirmationTimeLabel: string := "  ▶ 예약 시간 : "
  const ConfirmationNameLabel: string := "  ▶ 예약자 "
  const ConfirmationNameSuffix: string := "님"
  const ConfirmationLine7: string := "  ▶ 찾아오실 주소 :"
  const ConfirmationLine8: string := "  서울시 강남구 압구정로 2길 6(신사동), 코스모 403호"
  const ConfirmationLine9: string := "  **모든 이벤트 비용은 현금가 기준입니다. (계좌이체 가능)"
  const ConfirmationLine10: string := "  카드 결제 시, 정가로 청구되는 점 참고부탁드립니다."
  const ConfirmationLine11: string := "  ▪ 예약일 2일전 - 날짜, 시간 변경 가능"
  const ConfirmationLine12: string := "  ▪ 예약 당일/예약일 1일 전 - 날짜, 시간 변경불가 x"
  const ConfirmationLine13Start: string := "    *예약 취소 시, 예약금 환불 "
  const ConfirmationLine13End: string := "불가합니다.      (예약금 소멸됨)"
  const ConfirmationLine14Start: string := "  ▪ 예약시간 10분이상 늦으시는 경우, 예약 "
  const ConfirmationLine14End: string := "자동 취소 (예약금 환불 불가, 소멸됨)"

  /** The fixed text before `{appointmentDate}`. */
  const ConfirmationHead: string :=
    ConfirmationLine1 + "\n" + ConfirmationLine2 + "\n"
    + ConfirmationLine3Start + ConfirmationLine3End + "\n" + ConfirmationDateLabel
  /** The fixed text between `{appointmentDate}` and `{appointmentTime}`. */
  const ConfirmationAfterDate: string := "\n" + ConfirmationTimeLabel
  /** The fixed text between `{appointmentTime}` and `{customerName}`. */
  const ConfirmationAfterTime: string := "\n" + ConfirmationNameLabel
  /** The fixed text after `{customerName}`. */
  const ConfirmationTail: string :=
    ConfirmationNameSuffix + "\n" + ConfirmationLine7 + "\n" + ConfirmationLine8 + "\n" + ConfirmationLine9 + "\n" + ConfirmationLine10
    + "\n" + ConfirmationLine11 + "\n" + ConfirmationLine12 + "\n" + ConfirmationLine13Start + ConfirmationLine13End + "\n" + ConfirmationLine14Start + ConfirmationLine14End

  /** The confirmation body: fixed text with `{appointmentDate}`, `{appointmentTime}` and
      `{customerName}` in between (grouped to the right, the way it is taken apart below). */
  const ConfirmationContent: string :=
    ConfirmationHead + (Placeholder("appointmentDate") + (ConfirmationAfterDate
    + (Placeholder("appointmentTime") + (ConfirmationAfterTime
    + (Placeholder("customerName") + ConfirmationTail)))))

  /** Where the three placeholders start in the confirmation body. */
  const DateAt: nat := |ConfirmationHead|
  const TimeAt: nat := DateAt + |Placeholder("appointmentDate")| + |ConfirmationAfterDate|
  const NameAt: nat := TimeAt + |Placeholder("appointmentTime")| + |ConfirmationAfterTime|

  /** The static template table. */
  function Template(id: TemplateId): (r: MessageTemplate)
    ensures r.requiresCustomization <==> id == Confirmation
  {
    match id
    case DepositGuide => MessageTemplate("예약금 안내", DepositGuideContent, false)
    case Confirmation => MessageTemplate("예약 확정 안내", ConfirmationContent, true)
  }

  /* Each fixed piece of the confirmation body is free of `{`. Each literal gets a lemma of its
     own because the solver checks a character-membership fact reliably only on a short
     literal; `ConfirmationFixedTextBraceFree` then combines them. */
  lemma ConfirmationLine1BraceFree() ensures NoBrace(ConfirmationLine1) {}
  lemma ConfirmationLine2BraceFree() ensures NoBrace(ConfirmationLine2) {}
  lemma ConfirmationLine3StartBraceFree() ensures NoBrace(ConfirmationLine3Start) {}
  lemma ConfirmationLine3EndBraceFree() ensures NoBrace(ConfirmationLine3End) {}
  lemma ConfirmationDateLabelBraceFree() ensures NoBrace(ConfirmationDateLabel) {}
  lemma ConfirmationTimeLabelBraceFree() ensures NoBrace(ConfirmationTimeLabel) {}
  lemma ConfirmationNameLabelBraceFree() ensures NoBrace(ConfirmationNameLabel) {}
  lemma ConfirmationNameSuffixBraceFree() ensures NoBrace(ConfirmationNameSuffix) {}
  lemma ConfirmationLine7BraceFree() ensures NoBrace(ConfirmationLine7) {}
  lemma ConfirmationLine8BraceFree() ensures NoBrace(ConfirmationLine8) {}
  lemma ConfirmationLine9BraceFree() ensures NoBrace(ConfirmationLine9) {}
  lemma ConfirmationLine10BraceFree() ensures NoBrace(ConfirmationLine10) {}
  lemma ConfirmationLine11BraceFree() ensures NoBrace(ConfirmationLine11) {}
  lemma ConfirmationLine12BraceFree() ensures NoBrace(ConfirmationLine12) {}
  lemma ConfirmationLine13StartBraceFree() ensures NoBrace(ConfirmationLine13Start) {}
  lemma ConfirmationLine13EndBraceFree() ensures NoBrace(ConfirmationLine13End) {}
  lemma ConfirmationLine14StartBraceFree() ensures NoBrace(ConfirmationLine14Start) {}
  lemma ConfirmationLine14EndBraceFree() ensures NoBrace(ConfirmationLine14End) {}

  /** The fixed text of the confirmation body holds no `{` outside its three placeholders. */
  lemma ConfirmationFixedTextBraceFree()
    ensures NoBrace(ConfirmationHead) && NoBrace(ConfirmationAfterDate)
    ensures NoBrace(ConfirmationAfterTime) && NoBrace(ConfirmationTail)
  {
    ConfirmationLine1BraceFree();
    ConfirmationLine2BraceFree();
    ConfirmationLine3StartBraceFree();
    ConfirmationLine3EndBraceFree();
    ConfirmationDateLabelBraceFree();
    ConfirmationTimeLabelBraceFree();
    ConfirmationNameLabelBraceFree();
    ConfirmationNameSuffixBraceFree();
    ConfirmationLine7BraceFree();
    ConfirmationLine8BraceFree();
    ConfirmationLine9BraceFree();
    ConfirmationLine10BraceFree();
    ConfirmationLine11BraceFree();
    ConfirmationLine12BraceFree();
    ConfirmationLine13StartBraceFree();
    ConfirmationLine13EndBraceFree();
    ConfirmationLine14StartBraceFree();
    ConfirmationLine14EndBraceFree();
  }

  /** The text `{key}` that `customizeMessage` looks for. */
  function Placeholder(key: string): (p: string)
    ensures |p| == |key| + 2 && p[0] == '{' && p[|p| - 1] == '}'
    ensures p[1..|p| - 1] == key
  {
    "{" + key + "}"
  }

  /** No replacement value contains `$`, the one character whose meaning in a replacement
      string is not modelled. */
  predicate DollarFree(vars: seq<(string, string)>) {
    forall i :: 0 <= i < |vars| ==> '$' !in vars[i].1
  }

  /** Every replacement value is free of `{`. */
  predicate BraceFreeValues(vars: seq<(string, string)>) {
    forall i :: 0 <= i < |vars| ==> NoBrace(vars[i].1)
  }

  /** The `forEach` over the variable entries: each entry replaces the first `{key}` of the
      text produced by the entries before it. */
  function SubstituteAll(content: string, vars: seq<(string, string)>): (r: string)
    requires DollarFree(vars)
    ensures NoBrace(content) ==> r == content
    decreases |vars|
  {
    if |vars| == 0 then content
    else
      var (key, value) := vars[0];
      var next := ReplaceFirst(content, Placeholder(key), value);
      assert NoBrace(content) ==> next == content by {
        if NoBrace(content) {
          NoBraceUnchanged(content, Placeholder(key), value);
        }
      }
      SubstituteAll(next, vars[1..])
  }

  /** `customizeMessage`: a template that does not require customization comes back verbatim,
      whatever the variables; otherwise the variables are substituted in list order. */
  function Customize(t: MessageTemplate, vars: seq<(string, string)>): (r: string)
    requires t.requiresCustomization ==> DollarFree(vars)
    ensures !t.requiresCustomization ==> r == t.content
    ensures vars == [] ==> r == t.content
    ensures NoBrace(t.content) ==> r == t.content
  {
    if !t.requiresCustomization then t.content
    else SubstituteAll(t.content, vars)
  }

  /** Substituting a non-empty list replaces the first entry's placeholder, then substitutes
      the rest of the list. */
  lemma SubstituteAllStep(content: string, vars: seq<(string, string)>)
    requires |vars| > 0 && DollarFree(vars)
    ensures DollarFree(vars[1..])
    ensures SubstituteAll(content, vars)
         == SubstituteAll(ReplaceFirst(content, Placeholder(vars[0].0), vars[0].1), vars[1..])
  {
  }

  /** Substituting a concatenation of variable lists is substituting the first list, then
      the second one on its output. */
  lemma {:induction false} SubstituteAllAppend(content: string, a: seq<(string, string)>, b: seq<(string, string)>)
    requires DollarFree(a) && DollarFree(b)
    ensures DollarFree(a + b)
    ensures SubstituteAll(content, a + b) == SubstituteAll(SubstituteAll(content, a), b)
    decreases |a|
  {
    assert forall i :: 0 <= i < |a + b| ==> (a + b)[i] == if i < |a| then a[i] else b[i - |a|];
    if |a| > 0 {
      var next := ReplaceFirst(content, Placeholder(a[0].0), a[0].1);
      assert (a + b)[0] == a[0];
      assert (a + b)[1..] == a[1..] + b;
      SubstituteAllAppend(next, a[1..], b);
    } else {
      assert a + b == b;
    }
  }

  /** The result is a left fold: adding one more variable at the end performs one more
      first-occurrence replacement on the previous result. */
  lemma CustomizeSnoc(t: MessageTemplate, vars: seq<(string, string)>, key: string, value: string)
    requires t.requiresCustomization
    requires DollarFree(vars) && '$' !in value
    ensures DollarFree(vars + [(key, value)])
    ensures Customize(t, vars + [(key, value)])
         == ReplaceFirst(Customize(t, vars), Placeholder(key), value)
  {
    var mid := SubstituteAll(t.content, vars);
    SubstituteAllAppend(t.content, vars, [(key, value)]);
    assert SubstituteAll(mid, [(key, value)]) == ReplaceFirst(mid, Placeholder(key), value) by {
      assert [(key, value)][1..] == [];
    }
  }

  /** The deposit guide is not customizable: customizing it returns its body verbatim. */
  lemma DepositGuideVerbatim(vars: seq<(string, string)>)
    ensures Customize(Template(DepositGuide), vars) == DepositGuideContent
  {
  }


  /** A key whose placeholder has exactly one `{` and one `}`: the key holds neither brace. */
  predicate PlainKey(key: string) {
    '{' !in key && '}' !in key
  }

  /** A placeholder with a plain key matches the start of another such placeholder only
      when the two keys are equal. */
  lemma PlaceholderMatchesOnlyItsKey(q: string, k: string, rest: string)
    requires PlainKey(q) && PlainKey(k)
    requires OccursAt(Placeholder(k) + rest, Placeholder(q), 0)
    ensures q == k
  {
    var pq, pk := Placeholder(q), Placeholder(k);
    var s := pk + rest;
    assert s[..|pq|] == pq;
    // the first `}` after the opening brace closes both placeholders
    assert forall x :: 0 < x <= |k| ==> s[x] == k[x - 1];
    assert s[|k| + 1] == '}';
    assert forall x :: 0 < x <= |q| ==> s[x] == q[x - 1];
    assert s[|q| + 1] == '}';
    assert |q| == |k|;
    assert q == s[1..|q| + 1] == k;
  }

  /** The occurrences of a placeholder in `pre + ({k} + post)` with a brace-free `pre`: the
      one right after `pre` when the keys agree, and those inside `post`. */
  lemma SlotOccurrences(pre: string, k: string, post: string, q: string, i: nat)
    requires NoBrace(pre) && PlainKey(k) && PlainKey(q)
    ensures OccursAt(pre + (Placeholder(k) + post), Placeholder(q), i) <==>
      (i == |pre| && q == k)
      || (i >= |pre| + |k| + 2 && OccursAt(post, Placeholder(q), i - (|pre| + |k| + 2)))
  {
    var pk, pq := Placeholder(k), Placeholder(q);
    var x := pk + post;
    if OccursAt(pre + x, pq, i) {
      OccurrenceBehindBraceFreePrefix(pre, x, pq, i);
      var j := i - |pre|;
      OccurrenceOnBrace(x, pq, j);
      if j == 0 {
        PlaceholderMatchesOnlyItsKey(q, k, post);
      } else if j < |pk| {
      } else {
        OccursShift(pk, post, pq, j - |pk|);
      }
    }
    if i == |pre| && q == k {
      assert x[..|pk|] == pk;
      OccursShift(pre, x, pq, 0);
    }
    if i >= |pre| + |k| + 2 && OccursAt(post, pq, i - (|pre| + |k| + 2)) {
      OccursShift(pk, post, pq, i - (|pre| + |k| + 2));
      OccursShift(pre, x, pq, i - |pre|);
    }
  }

  /** Replacing `{k}` in `pre + ({k} + post)` with a brace-free `pre` puts the value right
      after `pre`. */
  lemma SlotReplace(pre: string, k: string, post: string, v: string)
    requires NoBrace(pre) && '$' !in v
    ensures ReplaceFirst(pre + (Placeholder(k) + post), Placeholder(k), v) == pre + (v + post)
  {
    ReplaceUnderBraceFreePrefix(pre, Placeholder(k) + post, Placeholder(k), v);
    ReplaceAtStart(Placeholder(k), post, v);
  }

  /** The placeholder occurrences in a body made of four brace-free texts with three
      placeholders between them: each placeholder at its own position, and nothing else. */
  lemma ThreeSlotOccurrences(h: string, k1: string, m1: string, k2: string, m2: string,
                             k3: string, t: string, q: string, i: nat)
    requires NoBrace(h) && NoBrace(m1) && NoBrace(m2) && NoBrace(t)
    requires PlainKey(k1) && PlainKey(k2) && PlainKey(k3) && PlainKey(q)
    ensures
      var at1 := |h|;
      var at2 := at1 + |k1| + 2 + |m1|;
      var at3 := at2 + |k2| + 2 + |m2|;
      OccursAt(h + (Placeholder(k1) + (m1 + (Placeholder(k2) + (m2 + (Placeholder(k3) + t))))),
               Placeholder(q), i)
      <==> (q == k1 && i == at1) || (q == k2 && i == at2) || (q == k3 && i == at3)
  {
    var post2 := m2 + (Placeholder(k3) + t);
    var post1 := m1 + (Placeholder(k2) + post2);
    SlotOccurrences(h, k1, post1, q, i);
    var o1 := |h| + |k1| + 2;
    if i >= o1 {
      SlotOccurrences(m1, k2, post2, q, i - o1);
      var o2 := o1 + |m1| + |k2| + 2;
      if i >= o2 {
        SlotOccurrences(m2, k3, t, q, i - o2);
        NoBraceNoOccurrence(t, Placeholder(q));
      }
    }
  }

  /** Every placeholder occurrence in the confirmation body: `{appointmentDate}`,
      `{appointmentTime}` and `{customerName}` each at its own position, and nothing else. */
  lemma ConfirmationOccurrences(q: string, i: nat)
    requires PlainKey(q)
    ensures OccursAt(ConfirmationContent, Placeholder(q), i) <==>
      (q == "appointmentDate" && i == DateAt)
      || (q == "appointmentTime" && i == TimeAt)
      || (q == "customerName" && i == NameAt)
  {
    ConfirmationFixedTextBraceFree();
    ThreeSlotOccurrences(ConfirmationHead, "appointmentDate", ConfirmationAfterDate,
      "appointmentTime", ConfirmationAfterTime, "customerName", ConfirmationTail, q, i);
  }

  /** Each of the three placeholders occurs exactly once in the confirmation body. */
  lemma ConfirmationPlaceholdersOnce()
    ensures forall i: nat :: OccursAt(ConfirmationContent, Placeholder("appointmentDate"), i) <==> i == DateAt
    ensures forall i: nat :: OccursAt(ConfirmationContent, Placeholder("appointmentTime"), i) <==> i == TimeAt
    ensures forall i: nat :: OccursAt(ConfirmationContent, Placeholder("customerName"), i) <==> i == NameAt
  {
    forall i: nat ensures OccursAt(ConfirmationContent, Placeholder("appointmentDate"), i) <==> i == DateAt {
      ConfirmationOccurrences("appointmentDate", i);
    }
    forall i: nat ensures OccursAt(ConfirmationContent, Placeholder("appointmentTime"), i) <==> i == TimeAt {
      ConfirmationOccurrences("appointmentTime", i);
    }
    forall i: nat ensures OccursAt(ConfirmationContent, Placeholder("customerName"), i) <==> i == NameAt {
      ConfirmationOccurrences("customerName", i);
    }
  }

  /** Three variables are three replacements, made in list order. */
  lemma SubstituteThree(c: string, k1: string, v1: string, k2: string, v2: string, k3: string, v3: string)
    requires '$' !in v1 && '$' !in v2 && '$' !in v3
    ensures DollarFree([(k1, v1), (k2, v2), (k3, v3)])
    ensures SubstituteAll(c, [(k1, v1), (k2, v2), (k3, v3)])
         == ReplaceFirst(ReplaceFirst(ReplaceFirst(c, Placeholder(k1), v1), Placeholder(k2), v2), Placeholder(k3), v3)
  {
    var vars := [(k1, v1), (k2, v2), (k3, v3)];
    var s1 := ReplaceFirst(c, Placeholder(k1), v1);
    var s2 := ReplaceFirst(s1, Placeholder(k2), v2);
    var s3 := ReplaceFirst(s2, Placeholder(k3), v3);
    assert vars[1..] == [(k2, v2), (k3, v3)];
    assert vars[1..][1..] == [(k3, v3)];
    assert SubstituteAll(s3, []) == s3;
    assert SubstituteAll(s2, [(k3, v3)]) == s3;
  }

  /** Replacing the second placeholder behind brace-free text and a brace-free value. */
  lemma FillSecondSlot(h: string, v1: string, m1: string, k2: string, post2: string, v2: string)
    requires NoBrace(h) && NoBrace(v1) && NoBrace(m1) && '$' !in v2
    ensures ReplaceFirst(h + (v1 + (m1 + (Placeholder(k2) + post2))), Placeholder(k2), v2)
         == h + (v1 + (m1 + (v2 + post2)))
  {
    var p2 := Placeholder(k2);
    ReplaceUnderBraceFreePrefix(h, v1 + (m1 + (p2 + post2)), p2, v2);
    ReplaceUnderBraceFreePrefix(v1, m1 + (p2 + post2), p2, v2);
    SlotReplace(m1, k2, post2, v2);
  }

  /** Replacing the third placeholder behind brace-free text and brace-free values. */
  lemma FillThirdSlot(h: string, v1: string, m1: string, v2: string, m2: string, k3: string, t: string, v3: string)
    requires NoBrace(h) && NoBrace(v1) && NoBrace(m1) && NoBrace(v2) && NoBrace(m2) && '$' !in v3
    ensures ReplaceFirst(h + (v1 + (m1 + (v2 + (m2 + (Placeholder(k3) + t))))), Placeholder(k3), v3)
         == h + (v1 + (m1 + (v2 + (m2 + (v3 + t)))))
  {
    var p3 := Placeholder(k3);
    ReplaceUnderBraceFreePrefix(h, v1 + (m1 + (v2 + (m2 + (p3 + t)))), p3, v3);
    ReplaceUnderBraceFreePrefix(v1, m1 + (v2 + (m2 + (p3 + t))), p3, v3);
    FillSecondSlot(m1, v2, m2, k3, t, v3);
  }

  /** Substituting the three keys, in order, into a body of four texts and three
      placeholders: each value lands where its placeholder was. */
  lemma ThreeSlotFill(h: string, k1: string, m1: string, k2: string, m2: string, k3: string,
                      t: string, v1: string, v2: string, v3: string)
    requires NoBrace(h) && NoBrace(m1) && NoBrace(m2) && NoBrace(v1) && NoBrace(v2)
    requires '$' !in v1 && '$' !in v2 && '$' !in v3
    ensures DollarFree([(k1, v1), (k2, v2), (k3, v3)])
    ensures SubstituteAll(h + (Placeholder(k1) + (m1 + (Placeholder(k2) + (m2 + (Placeholder(k3) + t))))),
                          [(k1, v1), (k2, v2), (k3, v3)])
         == h + (v1 + (m1 + (v2 + (m2 + (v3 + t)))))
  {
    var post1 := m1 + (Placeholder(k2) + (m2 + (Placeholder(k3) + t)));
    SubstituteThree(h + (Placeholder(k1) + post1), k1, v1, k2, v2, k3, v3);
    SlotReplace(h, k1, post1, v1);
    FillSecondSlot(h, v1, m1, k2, m2 + (Placeholder(k3) + t), v2);
    FillThirdSlot(h, v1, m1, v2, m2, k3, t, v3);
  }

  /** Filling the confirmation with a date, a time and a name free of `$`: each value takes
      its placeholder's place and all fixed text stays as it is. */
  lemma ConfirmationFilled(date: string, time: string, name: string)
    requires NoBrace(date) && NoBrace(time)
    requires '$' !in date && '$' !in time && '$' !in name
    ensures DollarFree([("appointmentDate", date), ("appointmentTime", time), ("customerName", name)])
    ensures Customize(Template(Confirmation),
                      [("appointmentDate", date), ("appointmentTime", time), ("customerName", name)])
         == ConfirmationHead + (date + (ConfirmationAfterDate + (time
            + (ConfirmationAfterTime + (name + ConfirmationTail)))))
  {
    ConfirmationFixedTextBraceFree();
    ThreeSlotFill(ConfirmationHead, "appointmentDate", ConfirmationAfterDate, "appointmentTime",
      ConfirmationAfterTime, "customerName", ConfirmationTail, date, time, name);
  }

  /** Brace-free pieces make a brace-free text, which holds no placeholder at all. */
  lemma BraceFreePiecesNoPlaceholder(a: string, b: string, c: string, d: string, e: string, f: string, g: string)
    requires NoBrace(a) && NoBrace(b) && NoBrace(c) && NoBrace(d) && NoBrace(e) && NoBrace(f) && NoBrace(g)
    ensures forall key :: !Occurs(a + (b + (c + (d + (e + (f + g))))), Placeholder(key))
  {
    var r := a + (b + (c + (d + (e + (f + g)))));
    assert NoBrace(r);
    forall key ensures !Occurs(r, Placeholder(key)) {
      NoBraceNoOccurrence(r, Placeholder(key));
    }
  }

  /** With brace-free values, the filled confirmation has no placeholder left at all. */
  lemma ConfirmationFilledLeavesNoPlaceholder(date: string, time: string, name: string)
    requires NoBrace(date) && NoBrace(time) && NoBrace(name)
    requires '$' !in date && '$' !in time && '$' !in name
    ensures DollarFree([("appointmentDate", date), ("appointmentTime", time), ("customerName", name)])
    ensures forall key :: !Occurs(Customize(Template(Confirmation),
      [("appointmentDate", date), ("appointmentTime", time), ("customerName", name)]), Placeholder(key))
  {
    ConfirmationFilled(date, time, name);
    ConfirmationFixedTextBraceFree();
    BraceFreePiecesNoPlaceholder(ConfirmationHead, date, ConfirmationAfterDate, time,
      ConfirmationAfterTime, name, ConfirmationTail);
  }

  /** The worked instance: date 2024-05-01, time 14:00, customer Kim. */
  lemma ConfirmationExample()
    ensures DollarFree([("appointmentDate", "2024-05-01"), ("appointmentTime", "14:00"), ("customerName", "Kim")])
    ensures Customize(Template(Confirmation),
                      [("appointmentDate", "2024-05-01"), ("appointmentTime", "14:00"), ("customerName", "Kim")])
         == ConfirmationHead + ("2024-05-01" + (ConfirmationAfterDate + ("14:00"
            + (ConfirmationAfterTime + ("Kim" + ConfirmationTail)))))
  {
    ConfirmationFilled("2024-05-01", "14:00", "Kim");
  }

  /** A placeholder whose key is not supplied stays in the text verbatim: with only the
      date given, the time and name placeholders are still there. */
  lemma ConfirmationDateOnly(date: string)
    requires '$' !in date
    ensures DollarFree([("appointmentDate", date)])
    ensures Customize(Template(Confirmation), [("appointmentDate", date)])
         == ConfirmationHead + (date + (ConfirmationAfterDate + (Placeholder("appointmentTime")
            + (ConfirmationAfterTime + (Placeholder("customerName") + ConfirmationTail)))))
  {
    ConfirmationFixedTextBraceFree();
    FillOnlyFirstSlot(ConfirmationHead, "appointmentDate", ConfirmationAfterDate + (Placeholder("appointmentTime")
      + (ConfirmationAfterTime + (Placeholder("customerName") + ConfirmationTail))), date);
  }

  /** A single variable fills the first placeholder behind brace-free text and leaves the
      rest of the body as it is. */
  lemma FillOnlyFirstSlot(h: string, k: string, post: string, v: string)
    requires NoBrace(h) && '$' !in v
    ensures DollarFree([(k, v)])
    ensures SubstituteAll(h + (Placeholder(k) + post), [(k, v)]) == h + (v + post)
  {
    SlotReplace(h, k, post, v);
    assert [(k, v)][1..] == [];
  }
}
